=== FILE: README.md ===
# Travel: the request handlers and trip-planner form, in Dafny

This project models the server-side request handlers of the Travel web
application and the form logic of its trip-planner page. It proves what those
handlers promise their callers.

- **Community creation** (`POST /api/community/create`) runs these steps in a fixed order:
  - a configuration guard;
  - one call to the community factory contract;
  - a first-match scan of the receipt's logs for `CommunityCreated`;
  - one database connection;
  - the derived chat-room id, AI settings and tag list;
  - a plain insert of the community record.

  The first step that throws ends the request with status 500 and the error's message, or `Failed to create community` when the message is empty. Nothing is retried or undone.
- **Posts** (`POST /api/social/posts`):
  - `content` and `location` are required;
  - an array `tags` value is passed to `Post.create` as given;
  - a non-empty string is cut at every comma and each piece trimmed;
  - anything else stores no tags.
- **Likes** (`POST /api/social/like`) validates `storyId`, then raises the post's `likes` counter by one, or answers 404.
- **Connections** (`POST /api/social/connect`) validates `travelerId` and appends one connection record. A falsy `userId` is stored as absent.
- **Google sign-in** (`POST /api/auth/google`) validates the token, verifies it, and upserts the user keyed by the Google subject id.
- **Trip planner** (`app/trip-planner/page.tsx`):
  - a field update;
  - the defaults and interest parsing used when a plan is generated;
  - the rule that enables the Generate button.

Each handler is a pure function. It maps an abstract store and the request to a response with a status code, and to the new store. What the handler cannot compute itself is a parameter:

- whether the wallet accepts the private key, and the ledger's answer, as a receipt or a thrown message;
- what the contract interface makes of each log;
- whether the database connects and writes;
- the id the database assigns, or makes of a posted id;
- the Google verification result;
- the clock readings.

The community handler and the sign-in handler also return the trace of their external actions, in order. This makes "the contract call precedes every database action" a statement about the model.

Modules, one per source component, plus shared helpers:

- `Wrappers`: `Option` and `Result`.
- `Text`: ASCII white space, `trim`, `toLowerCase`, `split`, `join`, `filter(Boolean)` and `replace(/\s+/g, "_")`.
- `Numbers`: `toString` of a natural number and `Number.parseInt` in base ten.
- `Json`: the JSON values a request body holds, and JavaScript truthiness.
- `CommunityCreate`, `Posts`, `Likes`, `Connections`, `GoogleAuth`, `TripPlanner`: the handlers and the page.

What the community handler does not do, and the model therefore does not do either:

- No step is retried or run concurrently: the steps run once, one after another.
- The record is inserted, not upserted: `NoUpsertByLedgerId` proves that the same request answered with the same receipt twice stores two records.
- Every failure is a plain 500; there is no separate outcome for a contract call whose fate is unknown.
- The community type is only compared with the literal strings `blockchain`, `special` and `ai-optimized`.

## Model

| member | source | states |
|---|---|---|
| CommunityCreate.FirstCreatedId | app/api/community/create/route.ts:62-73 | The scan finds no id exactly when no log parses as a `CommunityCreated` event; otherwise its id is that of a matching log with no matching log before it |
| CommunityCreate.FirstCreatedWins | app/api/community/create/route.ts:62-67 | When log `k` is the first `CommunityCreated` event, the scan returns its `communityId` as decimal text, whatever follows |
| CommunityCreate.LaterLogsIgnored | app/api/community/create/route.ts:62-67 | Appending logs after a match never changes the id found |
| CommunityCreate.UnmatchedLogsSkipped | app/api/community/create/route.ts:62-70 | Logs that do not parse, or parse under another name, are skipped without error: the scan of `a + b` equals the scan of `b` |
| CommunityCreate.CreateInContract | app/api/community/create/route.ts:43-74 | With a setting missing, the contract step fails with the configuration message and performs no action. A private key the wallet rejects fails the step with the thrown message after only the provider is opened. Otherwise it opens the provider, the signer and the contract, makes exactly one `createCommunity(name, target)` call, and then: fails with the ledger's message, returns the first-match id of the receipt's logs (an absent list read as empty), or fails with the missing-event message |
| CommunityCreate.ContractIdIsFirstEvent | app/api/community/create/route.ts:43-73 | A successful contract step implies a complete configuration and a mined receipt, and its id is the id of the first `CommunityCreated` log |
| CommunityCreate.NoEventNoId | app/api/community/create/route.ts:62-73 | A receipt without any `CommunityCreated` log fails the step with `Could not find CommunityCreated event in transaction receipt.` |
| CommunityCreate.LogsOf | app/api/community/create/route.ts:62 | A receipt whose log list is absent is scanned as having no logs; a present list is scanned as it is |
| CommunityCreate.ConfigGuardFirst | app/api/community/create/route.ts:44-51 | A missing RPC URL, private key or contract address fails the whole request with that message and status 500, with no provider, signer, contract or database action and the store unchanged |
| CommunityCreate.ContractStepNoDb | app/api/community/create/route.ts:43-74 | The contract step performs no database action. With a complete environment and an accepted key it performs four actions, the last being the contract call; otherwise it fails without any contract call |
| CommunityCreate.ContractStep | app/api/community/create/route.ts:99 | The handler calls the contract with the request's name and `parseInt` of `maxMembers` as the target, as its fourth action when the environment is complete and the key is accepted; a successful step implies a complete environment and a mined receipt |
| CommunityCreate.BadKeyStopsBeforeCall | app/api/community/create/route.ts:48-54 | When the wallet constructor rejects the private key, the request fails with status 500 and that message after opening only the provider: no signer, no contract call, no database action, the store unchanged |
| CommunityCreate.Slug | app/api/community/create/route.ts:79 | The name segment of a chat-room id has no white space and no upper-case letter |
| CommunityCreate.SlugOfTwoWords | app/api/community/create/route.ts:79 | A space-free word followed by any run of white space and a space-free word (possibly empty, as for a trailing run) becomes `word_word`, lower-cased: each run is one underscore |
| CommunityCreate.ChatRoomId | app/api/community/create/route.ts:77-80 | A chat-room id starts with `chat_` and has no white space and no upper-case letter |
| CommunityCreate.ChatRoomIdParts | app/api/community/create/route.ts:79 | After `chat_` comes the slug of the name, and after the slug and one `_` comes the clock reading's decimal text |
| CommunityCreate.ChatRoomIdClock | app/api/community/create/route.ts:79 | `parseInt` of the text after the name segment gives back the clock reading |
| CommunityCreate.InitializeAiSettings | app/api/community/create/route.ts:83-90 | AI settings are always enabled with the fixed welcome message, and the mode is advanced exactly when the type is `ai-optimized` |
| CommunityCreate.TagsFor | app/api/community/create/route.ts:111-116 | `blockchain` gets `Crypto`, `Smart Contracts`; `special` gets `Verified`, `Safe`; every other type gets `AI-Optimized`, `Tech-Enabled`; each list has two different tags |
| CommunityCreate.TagsIdentifyFamily | app/api/community/create/route.ts:111-116 | Two community types get the same tags exactly when both are `blockchain`, both are `special`, or both are neither |
| CommunityCreate.ErrorText | app/api/community/create/route.ts:146 | The error text of a failure is never empty: it is the thrown message, or `Failed to create community` when that is empty |
| CommunityCreate.NewCommunity | app/api/community/create/route.ts:11-27 | A new document copies the request's name, destination, type, description and admin address, carries the given contract address and community id, the tags of its type and `parseInt` of `maxMembers`, and takes the schema defaults: 1 member, `0 ETH` pooled, unverified |
| CommunityCreate.Persist | app/api/community/create/route.ts:102-130 | After the contract step, only database actions happen. A connection error answers 500 with its message (or the fallback text), after the connect attempt alone: no insert happens. An insert error answers 500 with its message. Either failure leaves the store unchanged. Success appends one record carrying the contract's id and the contract address |
| CommunityCreate.Derive | app/api/community/create/route.ts:104-130 | The record built after connecting carries the contract's id and address, the chat-room id made from the request's name at the chat clock, the AI settings and tags of the request's type, and the creation clock |
| CommunityCreate.AfterContract | app/api/community/create/route.ts:99-149 | Once the contract step has run, a failed step answers 500 with its message and the store unchanged; the actions are the step's followed by database actions only; the request succeeds exactly when the step succeeded and the connection and insert succeed, appending one record with the step's id and the contract address |
| CommunityCreate.Create | app/api/community/create/route.ts:92-151 | The handler's actions are the contract step's actions followed by database actions only. A failed contract step gives its error with status 500 and the store unchanged. The request succeeds exactly when the contract step, the connection and the insert all succeed. On success exactly one record is appended, and both the record and the response carry the contract's id and the contract address |
| CommunityCreate.DbFailureAnswersItsMessage | app/api/community/create/route.ts:102-149 | After a successful contract step, a connection error ends the request with status 500 and that error's message (the fallback text when it is empty), with no insert after the connect attempt; an insert error answers with its message; the store is unchanged either way |
| CommunityCreate.ContractCallPrecedesDb | app/api/community/create/route.ts:99-102 | In every run, every database action is preceded by the contract call |
| CommunityCreate.StoredRecordContents | app/api/community/create/route.ts:118-130 | The record a successful request stores copies the request's name, destination, type, description and admin address, carries the configured contract address, the tags of its type, the chat-room id of its name, the AI settings of its type, `parseInt` of `maxMembers` and the creation clock, and has 1 member, `0 ETH` pooled and is unverified |
| CommunityCreate.NoUpsertByLedgerId | app/api/community/create/route.ts:118-130 | The insert is not keyed by the ledger id: two identical successful requests store two equal records |
| CommunityCreate.LedgerFailureStopsEverything | app/api/community/create/route.ts:141-149 | A contract call that throws gives status 500 with the thrown message, leaves the store unchanged, and is followed by no database action |
| Numbers.ParseInt | app/api/community/create/route.ts:99 | `parseInt` yields no number (`NaN`) exactly when no digit follows the leading white space and the optional sign |
| Numbers.ParseIntDigits | app/api/community/create/route.ts:99 | After any white space and an optional `+` or `-`, `parseInt` reads the whole run of digits up to the first non-digit, and negates it exactly after `-` |
| Numbers.ParseIntSigned | app/api/community/create/route.ts:99 | Leading zeros do not change the number: white space, a sign, zeros and the decimal text of `n` read as `n`, or `-n` after `-` |
| Numbers.ParseIntExample | app/api/community/create/route.ts:99 | `parseInt(" -007x")` is `-7` |
| Numbers.NatToString | app/api/community/create/route.ts:66 | `toString()` of a natural number is a non-empty run of digits with no leading zero, and reads back as the number (`NatToStringValue`) |
| Numbers.ParseIntNatToString | app/api/community/create/route.ts:66 | `parseInt` reads back the decimal text `toString` writes for a natural number, whatever non-digit text follows |
| Text.ToLower | app/api/community/create/route.ts:79 | `toLowerCase` keeps the length, turns each upper-case ASCII letter into the letter 32 code points later (its lower-case form), keeps every other character, and so leaves no upper-case letter and keeps white space where it was |
| Text.CollapseSpaces | app/api/community/create/route.ts:79 | `replace(/\s+/g, "_")` leaves no white space and never lengthens the string; `CollapseRun` and `CollapseWord` fix what each run and each word becomes |
| Text.Trim | app/api/social/posts/router.ts:34 | A trimmed string neither starts nor ends with white space and is no longer than the input; `TrimSlice` and `TrimOfPadded` fix which slice it is |
| Text.TrimSlice | app/api/social/posts/router.ts:34 | The trimmed string is the slice of the input between a leading and a trailing run of white space |
| Text.TrimOfPadded | app/api/social/posts/router.ts:34 | That slice is unique: a trimmed string padded with white space on either side trims back to itself |
| Text.TrimKeepsChars | app/api/social/posts/router.ts:34 | Trimming introduces no character that the input did not have |
| Text.TrimFixpoint | app/api/social/posts/router.ts:34 | `trim` leaves a string unchanged exactly when it has no white space at either end |
| Text.TrimAll | app/api/social/posts/router.ts:34 | Mapping `trim` over a list keeps its length and leaves every element without white space at either end; a list already in that form is kept as it is (`TrimAllFixpoint`) |
| Text.TrimAllMaps | app/api/social/posts/router.ts:34 | `map((t) => t.trim())`: element `k` of the result is the trim of element `k` of the input |
| Text.Split | app/api/social/posts/router.ts:34 | `split(",")` yields one more piece than there are commas, and no piece contains a comma |
| Text.JoinSplit | app/api/social/posts/router.ts:34 | Joining the pieces of `split(sep)` with `sep` gives the string back |
| Text.SplitJoin | app/api/social/posts/router.ts:34 | Splitting the join of separator-free pieces gives the pieces back |
| Text.Join | app/api/social/posts/router.ts:34 | The inverse the split is checked against: joining `n` separator-free pieces puts exactly `n - 1` separators in the result |
| Posts.NormalizeTags | app/api/social/posts/router.ts:31-35 | An array is stored unchanged. A non-empty string gives one tag per comma plus one, and tag `k` is the `k`-th comma-separated piece, trimmed; each is comma-free. Anything else gives no tags |
| Posts.TagsRoundTrip | app/api/social/posts/router.ts:33-34 | When no piece has white space at its ends, joining the stored tags with commas gives the submitted string back |
| Posts.EmptyPiecesKept | app/api/social/posts/router.ts:33-34 | `"a,,b"` is stored as the three tags `a`, empty and `b` |
| Posts.CreatePost | app/api/social/posts/router.ts:21-41 | A falsy `content` or `location` gives 400. The post is created (201) exactly when both are truthy and the database accepts it, adding exactly one post that holds the given fields and the normalised tags. Every other outcome leaves the store unchanged |
| Likes.Like | app/api/social/like/router.ts:24-43 | 400 happens exactly for a falsy `storyId`, so a cast or database failure never answers 400. An unknown id gives 404. Both leave the store unchanged. A like of an existing post raises its `likes` by exactly one, changes nothing else in any post, and echoes `storyId` |
| Likes.Bump | app/api/social/like/router.ts:33 | `$inc: { likes: 1 }` raises the counter by exactly one and leaves every other field of the post as it was |
| Likes.FirstLikeIsOne | app/api/social/like/router.ts:11 | The first like of a freshly created post brings its counter to exactly 1 |
| Likes.LikesAccumulate | app/api/social/like/router.ts:31-35 | `n` successful likes of a post raise its counter by exactly `n` and leave every other post as it was |
| Connections.OptionalUser | app/api/social/connect/router.ts:29 | A falsy `userId` is stored as absent, and a truthy one as given |
| Connections.Connect | app/api/social/connect/router.ts:20-35 | A falsy `travelerId` gives 400. Success (201) happens exactly when the database accepts, and appends exactly one connection with the given traveler, the clock and the optional user. Every other outcome leaves the store unchanged. The store's invariant is kept: truthy travelers, and user ids only when truthy |
| Connections.ConnectAppendOnly | app/api/social/connect/router.ts:20-35 | Any run of requests, each with its own clock and database answer, only appends: earlier connections are never changed or removed, each request adds at most one, and the store's invariant is kept |
| GoogleAuth.FindUser | app/api/auth/google/route.ts:53-57 | The lookup finds nothing exactly when no user has the id; otherwise it finds the first user with it |
| GoogleAuth.UserOf | app/api/auth/google/route.ts:46-52 | The user record takes its Google id from the payload's `sub`, its avatar from `picture`, its email and name from the payload, and its creation time from the clock |
| GoogleAuth.Upsert | app/api/auth/google/route.ts:53-57 | The upsert stores the new user, either replacing the user with its id or appending. Users with other ids are untouched. Unique ids stay unique, and then the only user with the id is the new one |
| GoogleAuth.UpsertIdempotent | app/api/auth/google/route.ts:53-57 | Upserting the same user twice stores what one upsert stores |
| GoogleAuth.Login | app/api/auth/google/route.ts:26-67 | 400 happens exactly for a falsy token, before verification or database access, so a verification or database failure never answers 400. A missing payload gives 401 after verification only. Every other failure is `Authentication failed` with the users unchanged. Login succeeds exactly when the token is verified and the database connects and writes: it returns the token and the user built from the payload and the clock, and upserts that user |
| GoogleAuth.LoginAgainOverwrites | app/api/auth/google/route.ts:46-57 | After a second login with the same subject, exactly that one user carries the subject, overwritten with the latest claims and clock, and the number of users is unchanged |
| TripPlanner.HandleInputChange | app/trip-planner/page.tsx:63-65 | An input change sets the named field to the value and keeps every other field |
| TripPlanner.InputChangesCommute | app/trip-planner/page.tsx:63-65 | Changes to two different fields can be applied in either order |
| TripPlanner.InputChangeOverwrites | app/trip-planner/page.tsx:63-65 | A later change of a field replaces an earlier one |
| TripPlanner.ParseInterests | app/trip-planner/page.tsx:77-80 | The interests are the comma-separated pieces of the text, or of `sightseeing, food` when it is empty, trimmed, with empty pieces dropped, in order and with duplicates kept; every one is non-empty and trimmed. The `Culture, Food, Photography` alternative is never taken |
| Text.NonEmpty | app/trip-planner/page.tsx:80 | `filter(Boolean)` keeps exactly the non-empty strings, and as a multiset it is the input with every empty string removed |
| Text.NonEmptyAppend | app/trip-planner/page.tsx:80 | The filter keeps order: filtering a concatenation concatenates the filtered parts |
| TripPlanner.EmptyInterestsDefault | app/trip-planner/page.tsx:77-80 | An empty interests field parses as `["sightseeing", "food"]` |
| TripPlanner.FallbackNeverApplies | app/trip-planner/page.tsx:80 | The `Culture, Food, Photography` fallback is dead code: `",,"` parses as the empty list |
| TripPlanner.GenerateTripPlan | app/trip-planner/page.tsx:72-80 | An empty destination, duration, budget or traveler count falls back to `Delhi,India`, `7 days`, `₹20000-30000` or `2 people`; a typed value is kept |
| TripPlanner.OrDefault | app/trip-planner/page.tsx:73-77 | `value || fallback` on strings: a non-empty value is kept, and an empty one is replaced by the fallback |
| TripPlanner.GenerateEnabled | app/trip-planner/page.tsx:311 | The Generate button is disabled while a plan is being generated and while the destination is empty, and enabled otherwise |
| TripPlanner.EnabledPlanKeepsDestination | app/trip-planner/page.tsx:309-311 | A plan started from the enabled button keeps the typed destination |

## Left out

- The blockchain client is abstracted: the JSON-RPC provider, the wallet, the contract binding, `tx.wait()` and ABI log decoding. Whether the wallet accepts the private key, the ledger's answer and each log's parse are parameters.
- The provider and contract constructors are taken not to throw; only the wallet constructor's rejection of the key is modelled.
- Each parsed event is taken to carry a numeric `communityId`. An event without one would make `toString()` throw inside the `try`, which skips that log. This model never produces such an event.
- A `null` receipt makes `receipt.hash` throw, giving a 500. Receipts here are never null; only their log list may be absent.
- Mongoose is abstracted: connections, queries, schema validation and failing casts are folded into the database outcome parameters. A missing required field, a `NaN` cast or a duplicate document id shows up as a failed insert or update.
- Casts that succeed but change the value are not modelled. The `Post` schema declares `content` and `location` as `String` and `tags` as `[String]`, and the connection schema declares `travelerId` and `userId` as `String`; Mongoose stores a number or boolean there as its text (`5` as `"5"`, `[5, true]` as `["5", "true"]`). The model stores and returns the request's values as given (`Posts.CreatePost`, `Connections.Connect`).
- The two `Post` schemas that share one cached model are left out. `likes` is a natural number that starts at 0.
- Reading the request body (`request.json()`) is left out, so a malformed body and its 500 are not modelled. The community request's fields are taken to be strings; the other handlers see any JSON value.
- JSON numbers are integers only: floats and `NaN` are not modelled.
- `toLowerCase` and the `\s` class are restricted to ASCII.
- `Number.parseInt` is modelled in base ten only. It does not read a `0x` prefix, and it does not model the loss of precision for very long digit strings.
- Google's `verifyIdToken` and the audience check are a parameter.
- GoogleAuth.Upsert writes every claim, so a claim absent from the payload replaces an earlier value with an absent one. Whether the source does this depends on the Mongoose version: since Mongoose 6, keys whose value is `undefined` are stripped from `$set`, and then an absent claim keeps the earlier value. `GoogleAuth.LoginAgainOverwrites` states the overwriting behaviour.
- The unique index on `googleId` is taken as given. `GoogleAuth.LoginAgainOverwrites` assumes the stored users already have unique ids, as the index guarantees.
- Clocks (`Date.now()`, `new Date()`) are parameters.
- `console.log` output is left out.
- The community list route, the posts `GET`, the join route and the page layout are left out: they only read from the database or render.
- The trip planner's `setTimeout`, the `isGenerating` state transitions, the JSX and the hard-coded itinerary are UI only and left out.
- `TripPlanner.HandleInputChange` takes one of the six form fields; a computed key outside them, which would add a new property, is not modelled.
- Concurrency between requests is not modelled: every handler runs alone against the store.

=== FILE: community_create.dfy ===
/**
 * The community-creation handler: a configuration guard, one call to the
 * community factory contract, a first-match scan of the receipt's logs, the
 * derived chat-room id, AI settings and tags, and a plain insert of the
 * community record. Every step runs once, in a fixed order; the first step
 * that throws ends the request with status 500 and nothing is undone.
 */
module CommunityCreate {
  import opened Wrappers
  import opened Text
  import opened Numbers

  const ConfigError := "Server environment is not configured for blockchain interaction."
  const EventMissing := "Could not find CommunityCreated event in transaction receipt."
  const FallbackError := "Failed to create community"
  const CreatedEvent := "CommunityCreated"
  const WelcomeMessage := "Welcome to your AI-powered travel community!"

  /** The process environment the contract step reads; `None` is an unset variable. */
  datatype Env = Env(rpcUrl: Option<string>, privateKey: Option<string>, contractAddress: Option<string>)

  /** An environment variable that is set to a non-empty string (a truthy value). */
  predicate IsSet(v: Option<string>) {
    v.Some? && v.value != []
  }

  predicate Configured(env: Env) {
    IsSet(env.rpcUrl) && IsSet(env.privateKey) && IsSet(env.contractAddress)
  }

  // ---------------------------------------------------------------- ledger

  /** An event the contract interface recognised: its name and its `communityId` argument. */
  datatype ParsedLog = ParsedLog(name: string, communityId: nat)

  /**
   * One receipt log, carrying what the contract interface's `parseLog` makes
   * of it: `None` when parsing throws or yields nothing.
   */
  datatype Log = Log(parse: Option<ParsedLog>)

  /** A mined transaction's receipt; `logs` is `None` when the field is null or undefined. */
  datatype Receipt = Receipt(hash: string, logs: Option<seq<Log>>)

  /**
   * What the blockchain client makes of the request: the wallet constructor
   * rejects the private key (so no contract is bound and nothing is called),
   * or `createCommunity(name, target)` followed by `wait()` mines a receipt
   * or throws.
   */
  datatype LedgerOutcome = KeyRejected(message: string) | Mined(receipt: Receipt) | Threw(message: string)

  /** The externally visible actions of one request, in the order they happen. */
  datatype Effect =
    | OpenProvider(url: string)
    | OpenSigner
    | BindContract(address: string)
    | CallCreate(name: string, target: Option<int>)
    | ConnectDb
    | InsertCommunity(record: Community)

  /** A step's result together with the actions it performed. */
  datatype Step<T> = Step(result: Result<T>, effects: seq<Effect>)

  predicate IsCreatedEvent(log: Log) {
    log.parse.Some? && log.parse.value.name == CreatedEvent
  }

  /** `logs[k]` is a `CommunityCreated` event and no earlier log is one. */
  predicate IsFirstCreated(logs: seq<Log>, k: int) {
    0 <= k < |logs| && IsCreatedEvent(logs[k])
    && forall j :: 0 <= j < k ==> !IsCreatedEvent(logs[j])
  }

  /** The id the scan reports for a log that matched: its `communityId` as decimal text. */
  function EventId(log: Log): string
    requires IsCreatedEvent(log)
  {
    NatToString(log.parse.value.communityId)
  }

  /** The log scan: the id of the first `CommunityCreated` event, skipping every other log. */
  function FirstCreatedId(logs: seq<Log>): (r: Option<string>)
    ensures r.None? <==> forall k :: 0 <= k < |logs| ==> !IsCreatedEvent(logs[k])
    ensures r.Some? ==> exists k :: IsFirstCreated(logs, k) && r.value == EventId(logs[k])
  {
    if logs == [] then None
    else if IsCreatedEvent(logs[0]) then
      assert IsFirstCreated(logs, 0);
      Some(EventId(logs[0]))
    else
      var r := FirstCreatedId(logs[1..]);
      if r.Some? then
        var k :| IsFirstCreated(logs[1..], k) && r.value == EventId(logs[1..][k]);
        assert IsFirstCreated(logs, k + 1);
        r
      else r
  }

  /** Whatever follows, the scan returns the id of the first matching log. */
  lemma {:induction false} FirstCreatedWins(logs: seq<Log>, k: int)
    requires IsFirstCreated(logs, k)
    ensures FirstCreatedId(logs) == Some(EventId(logs[k]))
  {
    if k > 0 {
      assert IsFirstCreated(logs[1..], k - 1);
      FirstCreatedWins(logs[1..], k - 1);
    }
  }

  /** Logs after a match never change the id. */
  lemma LaterLogsIgnored(a: seq<Log>, b: seq<Log>)
    requires FirstCreatedId(a).Some?
    ensures FirstCreatedId(a + b) == FirstCreatedId(a)
  {
    var k :| IsFirstCreated(a, k) && FirstCreatedId(a).value == EventId(a[k]);
    assert IsFirstCreated(a + b, k);
    FirstCreatedWins(a + b, k);
  }

  /** Logs that do not parse as `CommunityCreated` are skipped without error. */
  lemma {:induction false} UnmatchedLogsSkipped(a: seq<Log>, b: seq<Log>)
    requires forall k :: 0 <= k < |a| ==> !IsCreatedEvent(a[k])
    ensures FirstCreatedId(a + b) == FirstCreatedId(b)
  {
    if a != [] {
      assert (a + b)[1..] == a[1..] + b;
      UnmatchedLogsSkipped(a[1..], b);
    } else {
      assert a + b == b;
    }
  }

  /** `receipt.logs ?? []`. */
  function LogsOf(receipt: Receipt): (r: seq<Log>)
    ensures receipt.logs.None? ==> r == []
    ensures receipt.logs.Some? ==> r == receipt.logs.value
  {
    receipt.logs.GetOr([])
  }

  /**
   * `createCommunityInContract`: fails before touching the ledger when the
   * environment is incomplete or the private key is rejected, otherwise makes
   * exactly one contract call and reports the first `CommunityCreated` id of
   * its receipt.
   */
  function CreateInContract(env: Env, name: string, target: Option<int>, ledger: LedgerOutcome): (r: Step<string>)
    ensures !Configured(env) ==> r == Step(Err(ConfigError), [])
    ensures Configured(env) && ledger.KeyRejected? ==>
              r == Step(Err(ledger.message), [OpenProvider(env.rpcUrl.value)])
    ensures Configured(env) && !ledger.KeyRejected? ==>
              r.effects == [OpenProvider(env.rpcUrl.value), OpenSigner,
                            BindContract(env.contractAddress.value), CallCreate(name, target)]
    ensures Configured(env) && ledger.Threw? ==> r.result == Err(ledger.message)
    ensures Configured(env) && ledger.Mined? ==>
              r.result == FirstCreatedId(LogsOf(ledger.receipt)).ToResult(EventMissing)
  {
    if !Configured(env) then Step(Err(ConfigError), [])
    else
      var setup := [OpenProvider(env.rpcUrl.value)];
      var effects := setup + [OpenSigner, BindContract(env.contractAddress.value), CallCreate(name, target)];
      match ledger
      case KeyRejected(message) => Step(Err(message), setup)
      case Threw(message) => Step(Err(message), effects)
      case Mined(receipt) =>
        match FirstCreatedId(LogsOf(receipt))
        case Some(id) => Step(Ok(id), effects)
        case None => Step(Err(EventMissing), effects)
  }

  // ---------------------------------------------------------------- derivations

  /** The name segment of a chat-room id: lower-cased, each white-space run one underscore. */
  function Slug(name: string): (r: string)
    ensures NoSpace(r) && NoUpper(r)
  {
    CollapseKeepsNoUpper(ToLower(name));
    CollapseSpaces(ToLower(name))
  }

  lemma ToLowerAppend(a: string, b: string)
    ensures ToLower(a + b) == ToLower(a) + ToLower(b)
  {
    assert forall k :: 0 <= k < |a + b| ==> ToLower(a + b)[k] == (ToLower(a) + ToLower(b))[k];
  }

  lemma ToLowerKeepsSpaces(s: string)
    ensures NoSpace(s) ==> NoSpace(ToLower(s))
    ensures AllSpace(s) ==> AllSpace(ToLower(s))
  {
  }

  /** Two space-free words separated by any white-space run give `word_word`. */
  lemma SlugOfTwoWords(a: string, w: string, b: string)
    requires NoSpace(a) && NoSpace(b)
    requires w != [] && AllSpace(w)
    ensures Slug(a + w + b) == ToLower(a) + "_" + ToLower(b)
  {
    var la, lw, lb := ToLower(a), ToLower(w), ToLower(b);
    ToLowerAppend(a + w, b);
    ToLowerAppend(a, w);
    assert ToLower(a + w + b) == la + (lw + lb);
    ToLowerKeepsSpaces(a);
    ToLowerKeepsSpaces(w);
    ToLowerKeepsSpaces(b);
    CollapseTwoWords(la, lw, lb);
  }

  lemma ChatPrefixClean()
    ensures NoSpace("chat_") && NoUpper("chat_") && NoSpace("_") && NoUpper("_")
  {
  }

  /** `createChatRoom`: `chat_`, the slug of the name, `_`, and the clock reading. */
  function ChatRoomId(name: string, now: nat): (r: string)
    ensures |r| > 5 && r[..5] == "chat_"
    ensures NoSpace(r) && NoUpper(r)
  {
    var slug := Slug(name);
    ChatPrefixClean();
    NoSpaceAppend("chat_", slug);
    NoUpperAppend("chat_", slug);
    NoSpaceAppend("chat_" + slug, "_");
    NoUpperAppend("chat_" + slug, "_");
    var head := "chat_" + slug + "_";
    NoSpaceAppend(head, NatToString(now));
    NoUpperAppend(head, NatToString(now));
    head + NatToString(now)
  }

  lemma SliceOfConcat(a: string, b: string, c: string, d: string)
    ensures (a + b + c + d)[|a|..|a| + |b|] == b
    ensures (a + b + c + d)[|a| + |b| + |c|..] == d
  {
  }

  /** The name segment of a chat-room id is the slug, and the clock reading ends it. */
  lemma ChatRoomIdParts(name: string, now: nat)
    ensures var r := ChatRoomId(name, now);
            && r[5..5 + |Slug(name)|] == Slug(name) && r[5 + |Slug(name)|] == '_'
            && r[6 + |Slug(name)|..] == NatToString(now)
  {
    var slug, digits := Slug(name), NatToString(now);
    var head, sep := "chat_", "_";
    assert |head| == 5 && |sep| == 1;
    SliceOfConcat(head, slug, sep, digits);
  }

  /** The text after the name segment and its `_` reads back, with `parseInt`, as the clock. */
  lemma ChatRoomIdClock(name: string, now: nat)
    ensures ParseInt(ChatRoomId(name, now)[6 + |Slug(name)|..]) == Some(now)
  {
    ChatRoomIdParts(name, now);
    ParseIntOfNat(now);
  }

  datatype AiMode = Basic | Advanced

  datatype AiSettings = AiSettings(enabled: bool, mode: AiMode, welcomeMessage: string)

  /** `initializeAISettings`: always enabled with the fixed welcome; advanced only for "ai-optimized". */
  function InitializeAiSettings(communityType: string): (r: AiSettings)
    ensures r.enabled && r.welcomeMessage == WelcomeMessage
    ensures r.mode == Advanced <==> communityType == "ai-optimized"
  {
    AiSettings(true, if communityType == "ai-optimized" then Advanced else Basic, WelcomeMessage)
  }

  /** The tag list stored with a community, a total function of its type. */
  function TagsFor(communityType: string): (r: seq<string>)
    ensures |r| == 2 && r[0] != r[1]
    ensures communityType == "blockchain" ==> r == ["Crypto", "Smart Contracts"]
    ensures communityType == "special" ==> r == ["Verified", "Safe"]
    ensures communityType != "blockchain" && communityType != "special" ==> r == ["AI-Optimized", "Tech-Enabled"]
  {
    if communityType == "blockchain" then ["Crypto", "Smart Contracts"]
    else if communityType == "special" then ["Verified", "Safe"]
    else ["AI-Optimized", "Tech-Enabled"]
  }

  /**
   * Two types get the same tags exactly when both are `blockchain`, both are
   * `special`, or both are neither: the type's family is all the tags record.
   */
  lemma TagsIdentifyFamily(a: string, b: string)
    ensures TagsFor(a) == TagsFor(b) <==>
              (a == "blockchain") == (b == "blockchain") && (a == "special") == (b == "special")
  {
    if (a == "blockchain") != (b == "blockchain") || (a == "special") != (b == "special") {
      assert TagsFor(a)[0] != TagsFor(b)[0];
    }
  }

  // ---------------------------------------------------------------- the handler

  /** The request body fields the handler reads; `maxMembers` as the text `parseInt` sees. */
  datatype Request = Request(name: string, destination: string, communityType: string, maxMembers: string,
                             description: string, adminAddress: string)

  /** A stored community document. */
  datatype Community = Community(
    name: string, destination: string, communityType: string, maxMembers: Option<int>,
    description: string, admin: string, contractAddress: string, communityId: string,
    tags: seq<string>, chatRoomId: string, aiSettings: AiSettings,
    members: nat, pooledFunds: string, verified: bool, createdAt: nat)

  /** The document `Community.create` stores, with the schema defaults filled in. */
  function NewCommunity(req: Request, contractAddress: string, communityId: string, chatRoomId: string,
                        aiSettings: AiSettings, createdAt: nat): (c: Community)
    ensures c.members == 1 && c.pooledFunds == "0 ETH" && !c.verified
    ensures c.name == req.name && c.destination == req.destination && c.communityType == req.communityType
    ensures c.description == req.description && c.admin == req.adminAddress
    ensures c.contractAddress == contractAddress && c.communityId == communityId
    ensures c.maxMembers == ParseInt(req.maxMembers) && c.tags == TagsFor(req.communityType)
  {
    Community(req.name, req.destination, req.communityType, ParseInt(req.maxMembers),
              req.description, req.adminAddress, contractAddress, communityId,
              TagsFor(req.communityType), chatRoomId, aiSettings,
              1, "0 ETH", false, createdAt)
  }

  /** What the database does: the error thrown on connect or on insert, if any. */
  datatype Db = Db(connectError: Option<string>, insertError: Option<string>)

  datatype Response =
    | Created(community: Community, contractAddress: string, communityId: string,
              chatRoomId: string, aiSettings: AiSettings)
    | Failed(error: string)
  {
    function Status(): nat {
      if Created? then 200 else 500
    }
  }

  datatype Outcome = Outcome(response: Response, store: seq<Community>, effects: seq<Effect>)

  /** `error.message || "Failed to create community"`. */
  function ErrorText(message: string): (r: string)
    ensures r != []
    ensures message != [] ==> r == message
  {
    if message == [] then FallbackError else message
  }

  predicate IsDbEffect(e: Effect) {
    e.ConnectDb? || e.InsertCommunity?
  }

  /** Every database action comes after a contract call. */
  predicate LedgerBeforeDb(effects: seq<Effect>) {
    forall i :: 0 <= i < |effects| && IsDbEffect(effects[i]) ==>
      exists j :: 0 <= j < i && effects[j].CallCreate?
  }

  /** The contract step of a request: `parseInt(maxMembers)` is the target amount. */
  function ContractStep(env: Env, req: Request, ledger: LedgerOutcome): (r: Step<string>)
    ensures Configured(env) && !ledger.KeyRejected? ==>
              |r.effects| == 4 && r.effects[3] == CallCreate(req.name, ParseInt(req.maxMembers))
    ensures r.result.Ok? ==> Configured(env) && ledger.Mined?
  {
    CreateInContract(env, req.name, ParseInt(req.maxMembers), ledger)
  }

  /**
   * The steps after a successful contract call: connect, derive the chat
   * room, AI settings and tags, and insert the record. Only database actions
   * happen here.
   */
  function Persist(req: Request, contractAddress: string, communityId: string, db: Db, chatClock: nat,
                   createdAt: nat, store: seq<Community>): (r: Outcome)
    ensures forall k :: 0 <= k < |r.effects| ==> IsDbEffect(r.effects[k])
    ensures r.response.Failed? ==> r.store == store
    ensures r.response.Created? <==> db.connectError.None? && db.insertError.None?
    ensures r.response.Created? ==>
              && r.store == store + [r.response.community]
              && r.response.communityId == communityId
              && r.response.community.communityId == communityId
              && r.response.community.contractAddress == contractAddress
              && r.response.contractAddress == contractAddress
    ensures db.connectError.Some? ==> r == Outcome(Failed(ErrorText(db.connectError.value)), store, [ConnectDb])
    ensures db.connectError.None? && db.insertError.Some? ==>
              r.response == Failed(ErrorText(db.insertError.value))
  {
    if db.connectError.Some? then
      Outcome(Failed(ErrorText(db.connectError.value)), store, [ConnectDb])
    else
      var record := Derive(req, contractAddress, communityId, chatClock, createdAt);
      var effects := [ConnectDb, InsertCommunity(record)];
      if db.insertError.Some? then
        Outcome(Failed(ErrorText(db.insertError.value)), store, effects)
      else
        Outcome(Created(record, contractAddress, communityId, record.chatRoomId, record.aiSettings),
                store + [record], effects)
  }

  /** Steps 3 to 5 of the handler: the chat room, the AI settings and the record built from them. */
  function Derive(req: Request, contractAddress: string, communityId: string, chatClock: nat,
                  createdAt: nat): (c: Community)
    ensures c.communityId == communityId && c.contractAddress == contractAddress
    ensures c.chatRoomId == ChatRoomId(req.name, chatClock) && c.aiSettings == InitializeAiSettings(req.communityType)
    ensures c.tags == TagsFor(req.communityType) && c.createdAt == createdAt
  {
    NewCommunity(req, contractAddress, communityId, ChatRoomId(req.name, chatClock),
                 InitializeAiSettings(req.communityType), createdAt)
  }

  /**
   * The handler once the contract step has run: a failed step answers 500
   * with its message, a successful one goes on to `Persist` with the id it
   * reported. The actions are the step's followed by the database's.
   */
  function AfterContract(contract: Step<string>, req: Request, contractAddress: string, db: Db, chatClock: nat,
                         createdAt: nat, store: seq<Community>): (r: Outcome)
    ensures |contract.effects| <= |r.effects| && r.effects[..|contract.effects|] == contract.effects
    ensures forall k :: |contract.effects| <= k < |r.effects| ==> IsDbEffect(r.effects[k])
    ensures contract.result.Err? ==>
              r == Outcome(Failed(ErrorText(contract.result.message)), store, contract.effects)
    ensures r.response.Failed? ==> r.store == store
    ensures r.response.Created? <==> contract.result.Ok? && db.connectError.None? && db.insertError.None?
    ensures r.response.Created? ==>
              && r.store == store + [r.response.community]
              && r.response.communityId == contract.result.value
              && r.response.community.communityId == contract.result.value
              && r.response.contractAddress == contractAddress
              && r.response.community.contractAddress == contractAddress
  {
    match contract.result
    case Err(message) =>
      Outcome(Failed(ErrorText(message)), store, contract.effects)
    case Ok(communityId) =>
      var p := Persist(req, contractAddress, communityId, db, chatClock, createdAt, store);
      var effects := contract.effects + p.effects;
      assert effects[..|contract.effects|] == contract.effects;
      assert forall k :: |contract.effects| <= k < |effects| ==> effects[k] == p.effects[k - |contract.effects|];
      Outcome(p.response, p.store, effects)
  }

  /**
   * The `POST` handler. `chatClock` is `Date.now()` inside `createChatRoom`,
   * `createdAt` the clock when the document is built.
   */
  function Create(env: Env, req: Request, ledger: LedgerOutcome, db: Db, chatClock: nat, createdAt: nat,
                  store: seq<Community>): (r: Outcome)
    ensures var c := ContractStep(env, req, ledger);
            && |c.effects| <= |r.effects| && r.effects[..|c.effects|] == c.effects
            && (forall k :: |c.effects| <= k < |r.effects| ==> IsDbEffect(r.effects[k]))
    ensures var c := ContractStep(env, req, ledger);
            c.result.Err? ==> r == Outcome(Failed(ErrorText(c.result.message)), store, c.effects)
    ensures r.response.Failed? ==> r.store == store
    ensures r.response.Created? <==>
              ContractStep(env, req, ledger).result.Ok? && db.connectError.None? && db.insertError.None?
    ensures r.response.Created? ==>
              && r.store == store + [r.response.community]
              && r.response.communityId == r.response.community.communityId
              && r.response.community.contractAddress == r.response.contractAddress
    ensures r.response.Created? ==>
              var c := ContractStep(env, req, ledger);
              && c.result.Ok? && r.response.communityId == c.result.value
              && env.contractAddress.Some? && r.response.contractAddress == env.contractAddress.value
  {
    AfterContract(ContractStep(env, req, ledger), req, env.contractAddress.GetOr([]), db, chatClock, createdAt, store)
  }

  /**
   * After a successful contract step, a connection error ends the request
   * with its message before any insert, and an insert error answers with its
   * message; either way the store is unchanged.
   */
  lemma DbFailureAnswersItsMessage(env: Env, req: Request, ledger: LedgerOutcome, db: Db, chatClock: nat,
                                   createdAt: nat, store: seq<Community>)
    requires ContractStep(env, req, ledger).result.Ok?
    ensures var r := Create(env, req, ledger, db, chatClock, createdAt, store);
            db.connectError.Some? ==>
              r == Outcome(Failed(ErrorText(db.connectError.value)), store,
                           ContractStep(env, req, ledger).effects + [ConnectDb])
    ensures var r := Create(env, req, ledger, db, chatClock, createdAt, store);
            db.connectError.None? && db.insertError.Some? ==>
              r.response == Failed(ErrorText(db.insertError.value)) && r.store == store
  {
  }

  /** A successful contract step reports the id of the receipt's first `CommunityCreated` log. */
  lemma ContractIdIsFirstEvent(env: Env, name: string, target: Option<int>, ledger: LedgerOutcome)
    requires CreateInContract(env, name, target, ledger).result.Ok?
    ensures Configured(env) && ledger.Mined?
    ensures exists k :: IsFirstCreated(LogsOf(ledger.receipt), k)
                        && CreateInContract(env, name, target, ledger).result.value == EventId(LogsOf(ledger.receipt)[k])
  {
  }

  /** A receipt without a `CommunityCreated` log, or without logs, fails the step with the fixed message. */
  lemma NoEventNoId(env: Env, name: string, target: Option<int>, receipt: Receipt)
    requires Configured(env)
    requires forall k :: 0 <= k < |LogsOf(receipt)| ==> !IsCreatedEvent(LogsOf(receipt)[k])
    ensures CreateInContract(env, name, target, Mined(receipt)).result == Err(EventMissing)
  {
  }

  /** A missing setting fails the request before any provider, signer, contract or database action. */
  lemma ConfigGuardFirst(env: Env, req: Request, ledger: LedgerOutcome, db: Db, chatClock: nat, createdAt: nat,
                         store: seq<Community>)
    requires !Configured(env)
    ensures Create(env, req, ledger, db, chatClock, createdAt, store) == Outcome(Failed(ConfigError), store, [])
  {
  }

  /**
   * The contract step performs no database action. It calls the contract
   * exactly when the environment is complete and the key accepted, and then
   * ends with that call; otherwise it fails without calling.
   */
  lemma ContractStepNoDb(env: Env, name: string, target: Option<int>, ledger: LedgerOutcome)
    ensures var c := CreateInContract(env, name, target, ledger);
            && (forall k :: 0 <= k < |c.effects| ==> !IsDbEffect(c.effects[k]))
            && (Configured(env) && !ledger.KeyRejected? ==> |c.effects| == 4 && c.effects[3].CallCreate?)
            && (!Configured(env) || ledger.KeyRejected? ==>
                  c.result.Err? && forall k :: 0 <= k < |c.effects| ==> !c.effects[k].CallCreate?)
  {
    var e := CreateInContract(env, name, target, ledger).effects;
    if Configured(env) && !ledger.KeyRejected? {
      assert e == [OpenProvider(env.rpcUrl.value), OpenSigner, BindContract(env.contractAddress.value),
                   CallCreate(name, target)];
    }
  }

  /** The contract call precedes every database action of the handler. */
  lemma ContractCallPrecedesDb(env: Env, req: Request, ledger: LedgerOutcome, db: Db, chatClock: nat,
                               createdAt: nat, store: seq<Community>)
    ensures LedgerBeforeDb(Create(env, req, ledger, db, chatClock, createdAt, store).effects)
  {
    var c := ContractStep(env, req, ledger);
    var effects := Create(env, req, ledger, db, chatClock, createdAt, store).effects;
    ContractStepNoDb(env, req.name, ParseInt(req.maxMembers), ledger);
    if Configured(env) && !ledger.KeyRejected? {
      CallThenDb(c.effects, effects);
    } else {
      assert effects == c.effects;
      assert forall i :: 0 <= i < |effects| ==> !IsDbEffect(effects[i]);
    }
  }

  /** Effects that start with database-free steps ending in the contract call have the call before any database action. */
  lemma CallThenDb(prefix: seq<Effect>, effects: seq<Effect>)
    requires prefix != [] && prefix[|prefix| - 1].CallCreate?
    requires forall k :: 0 <= k < |prefix| ==> !IsDbEffect(prefix[k])
    requires |prefix| <= |effects| && effects[..|prefix|] == prefix
    ensures LedgerBeforeDb(effects)
  {
    assert forall k :: 0 <= k < |prefix| ==> effects[k] == prefix[k];
    forall i | 0 <= i < |effects| && IsDbEffect(effects[i])
      ensures exists j :: 0 <= j < i && effects[j].CallCreate?
    {
      assert effects[|prefix| - 1].CallCreate?;
    }
  }

  /** The stored record carries the derived fields and the schema defaults. */
  lemma StoredRecordContents(env: Env, req: Request, ledger: LedgerOutcome, db: Db, chatClock: nat,
                             createdAt: nat, store: seq<Community>)
    requires Create(env, req, ledger, db, chatClock, createdAt, store).response.Created?
    ensures var c := Create(env, req, ledger, db, chatClock, createdAt, store).response.community;
            && c.members == 1 && c.pooledFunds == "0 ETH" && !c.verified
            && c.tags == TagsFor(req.communityType)
            && c.chatRoomId == ChatRoomId(req.name, chatClock)
            && c.aiSettings == InitializeAiSettings(req.communityType)
            && c.maxMembers == ParseInt(req.maxMembers) && c.createdAt == createdAt
            && c.name == req.name && c.destination == req.destination && c.communityType == req.communityType
            && c.description == req.description && c.admin == req.adminAddress
            && c.contractAddress == env.contractAddress.value
  {
  }

  /**
   * The insert is not keyed by the ledger id: the same request answered with
   * the same receipt twice stores two records carrying one `communityId`.
   */
  lemma NoUpsertByLedgerId(env: Env, req: Request, ledger: LedgerOutcome, db: Db, clock: nat,
                           store: seq<Community>)
    requires Create(env, req, ledger, db, clock, clock, store).response.Created?
    ensures var once := Create(env, req, ledger, db, clock, clock, store).store;
            var twice := Create(env, req, ledger, db, clock, clock, once).store;
            |twice| == |store| + 2 && twice[|store|] == twice[|store| + 1]
  {
  }

  /**
   * A private key the wallet rejects fails the request with the thrown
   * message after the provider is opened, before any signer, contract call or
   * database action.
   */
  lemma BadKeyStopsBeforeCall(env: Env, req: Request, message: string, db: Db, chatClock: nat,
                              createdAt: nat, store: seq<Community>)
    requires Configured(env)
    ensures var r := Create(env, req, KeyRejected(message), db, chatClock, createdAt, store);
            r == Outcome(Failed(ErrorText(message)), store, [OpenProvider(env.rpcUrl.value)])
  {
    var c := ContractStep(env, req, KeyRejected(message));
    assert c == Step(Err(message), [OpenProvider(env.rpcUrl.value)]);
  }

  /** A failed contract step leaves no trace in the database and answers with its message. */
  lemma LedgerFailureStopsEverything(env: Env, req: Request, message: string, db: Db, chatClock: nat,
                                     createdAt: nat, store: seq<Community>)
    requires Configured(env) && message != []
    ensures var r := Create(env, req, Threw(message), db, chatClock, createdAt, store);
            && r.response == Failed(message) && r.response.Status() == 500 && r.store == store
            && forall k :: 0 <= k < |r.effects| ==> !IsDbEffect(r.effects[k])
  {
    var c := ContractStep(env, req, Threw(message));
    assert c.result == Err(message);
    var r := Create(env, req, Threw(message), db, chatClock, createdAt, store);
    assert r == Outcome(Failed(message), store, c.effects);
    ContractStepNoDb(env, req.name, ParseInt(req.maxMembers), Threw(message));
  }
}

=== FILE: connections.dfy ===
/** The traveler-connect handler: one required field, one appended record. */
module Connections {
  import opened Wrappers
  import opened Json

  const MissingTraveler := "Traveler ID is required."
  const ConnectError := "Failed to connect with traveler."

  /** A stored connection; `userId` is `None` when the request's value was falsy. */
  datatype Connection = Connection(travelerId: Value, userId: Option<Value>, connectedAt: nat)

  datatype ConnectBody = ConnectBody(travelerId: Value, userId: Value)

  datatype Response = Connected(connection: Connection) | Rejected(error: string) | Failed(error: string)
  {
    function Status(): nat {
      match this
      case Connected(_) => 201
      case Rejected(_) => 400
      case Failed(_) => 500
    }
  }

  datatype Outcome = Outcome(response: Response, store: seq<Connection>)

  /** What every stored connection satisfies: a truthy traveler, and a user id only when truthy. */
  predicate WellFormed(store: seq<Connection>) {
    forall k :: 0 <= k < |store| ==>
      !Falsy(store[k].travelerId) && (store[k].userId.Some? ==> !Falsy(store[k].userId.value))
  }

  /** `body.userId || undefined`. */
  function OptionalUser(userId: Value): (r: Option<Value>)
    ensures r.None? <==> Falsy(userId)
    ensures r.Some? ==> r.value == userId
  {
    if Falsy(userId) then None else Some(userId)
  }

  /** The `POST` handler; `now` is `new Date()`, `dbUp` whether connect and insert succeed. */
  function Connect(store: seq<Connection>, body: ConnectBody, now: nat, dbUp: bool): (r: Outcome)
    ensures r.response.Rejected? <==> Falsy(body.travelerId)
    ensures r.response.Connected? <==> !Falsy(body.travelerId) && dbUp
    ensures !r.response.Connected? ==> r.store == store
    ensures r.response.Connected? ==>
              && r.store == store + [r.response.connection]
              && r.response.connection.travelerId == body.travelerId
              && r.response.connection.connectedAt == now
              && (Falsy(body.userId) ==> r.response.connection.userId == None)
              && (!Falsy(body.userId) ==> r.response.connection.userId == Some(body.userId))
    ensures WellFormed(store) ==> WellFormed(r.store)
  {
    if Falsy(body.travelerId) then Outcome(Rejected(MissingTraveler), store)
    else if !dbUp then Outcome(Failed(ConnectError), store)
    else
      var c := Connection(body.travelerId, OptionalUser(body.userId), now);
      Outcome(Connected(c), store + [c])
  }

  /** One request of a run: its body, the clock when it is handled, and whether the database accepts it. */
  datatype Request = Request(body: ConnectBody, now: nat, dbUp: bool)

  /** The store after the requests `reqs`, handled one after another. */
  function ConnectAll(store: seq<Connection>, reqs: seq<Request>): seq<Connection>
    decreases |reqs|
  {
    if reqs == [] then store
    else ConnectAll(Connect(store, reqs[0].body, reqs[0].now, reqs[0].dbUp).store, reqs[1..])
  }

  /**
   * Any run of requests, each with its own clock and database answer, only
   * appends: earlier connections are never rewritten or removed, each request
   * adds at most one, and the store's invariant is kept.
   */
  lemma {:induction false} ConnectAppendOnly(store: seq<Connection>, reqs: seq<Request>)
    ensures var after := ConnectAll(store, reqs);
            && |store| <= |after| <= |store| + |reqs| && after[..|store|] == store
            && (WellFormed(store) ==> WellFormed(after))
    decreases |reqs|
  {
    if reqs != [] {
      var next := Connect(store, reqs[0].body, reqs[0].now, reqs[0].dbUp).store;
      ConnectAppendOnly(next, reqs[1..]);
      var after := ConnectAll(next, reqs[1..]);
      assert after[..|store|] == after[..|next|][..|store|];
    }
  }
}

=== FILE: google_auth.dfy ===
/**
 * The Google sign-in handler: a required token, an abstract verification,
 * and an upsert of the user keyed by the Google subject id.
 */
module GoogleAuth {
  import opened Wrappers
  import opened Json

  const MissingToken := "Missing Google ID token"
  const InvalidToken := "Invalid Google token"
  const AuthFailed := "Authentication failed"

  /** The verified token's claims the handler reads. */
  datatype Payload = Payload(sub: string, email: Option<string>, name: Option<string>, picture: Option<string>)

  /** What `verifyIdToken` and `getPayload` make of the token. */
  datatype Verification = VerifyThrew | NoPayload | Verified(payload: Payload)

  datatype User = User(googleId: string, email: Option<string>, name: Option<string>,
                       avatar: Option<string>, createdAt: nat)

  /** The database's answers: whether connecting and the upsert succeed. */
  datatype Db = Db(connects: bool, writes: bool)

  datatype Effect = VerifyToken(token: Value) | ConnectDb | UpsertUser(googleId: string)

  datatype Response =
    | LoggedIn(user: User, token: Value)
    | Rejected(error: string)
    | Unauthorized(error: string)
    | Failed(error: string)
  {
    function Status(): nat {
      match this
      case LoggedIn(_, _) => 200
      case Rejected(_) => 400
      case Unauthorized(_) => 401
      case Failed(_) => 500
    }
  }

  datatype Outcome = Outcome(response: Response, users: seq<User>, effects: seq<Effect>)

  /** No two users share a Google id (the schema's unique index). */
  predicate UniqueIds(users: seq<User>) {
    forall i, j :: 0 <= i < j < |users| ==> users[i].googleId != users[j].googleId
  }

  /** `findOne({ googleId: id })`: the first user with that id. */
  function FindUser(users: seq<User>, id: string): (r: Option<nat>)
    ensures r.None? <==> forall k :: 0 <= k < |users| ==> users[k].googleId != id
    ensures r.Some? ==> r.value < |users| && users[r.value].googleId == id
                        && forall k :: 0 <= k < r.value ==> users[k].googleId != id
  {
    if users == [] then None
    else if users[0].googleId == id then Some(0)
    else
      match FindUser(users[1..], id)
      case None => None
      case Some(k) => Some(k + 1)
  }

  /** The upsert: replace the first user with `u`'s id, or append `u` when there is none. */
  function Upsert(users: seq<User>, u: User): (r: seq<User>)
    ensures u in r
    ensures |r| == |users| || r == users + [u]
    ensures forall k :: 0 <= k < |users| && users[k].googleId != u.googleId ==> r[k] == users[k]
    ensures UniqueIds(users) ==> UniqueIds(r)
    ensures UniqueIds(users) ==> forall k :: 0 <= k < |r| && r[k].googleId == u.googleId ==> r[k] == u
  {
    match FindUser(users, u.googleId)
    case None => users + [u]
    case Some(i) =>
      var r := users[i := u];
      assert r[i] == u;
      r
  }

  /** Upserting the same user twice stores what one upsert stores. */
  lemma UpsertIdempotent(users: seq<User>, u: User)
    ensures Upsert(Upsert(users, u), u) == Upsert(users, u)
  {
    var once := Upsert(users, u);
    match FindUser(users, u.googleId)
    case None =>
      assert FindUser(once, u.googleId) == Some(|users|) by {
        FindFirst(once, u.googleId, |users|);
      }
    case Some(i) =>
      assert FindUser(once, u.googleId) == Some(i) by {
        FindFirst(once, u.googleId, i);
      }
  }

  lemma FindFirst(users: seq<User>, id: string, i: nat)
    requires i < |users| && users[i].googleId == id
    requires forall k :: 0 <= k < i ==> users[k].googleId != id
    ensures FindUser(users, id) == Some(i)
  {
  }

  /** The record written for a verified payload at clock `now`. */
  function UserOf(p: Payload, now: nat): (u: User)
    ensures u.googleId == p.sub && u.avatar == p.picture
    ensures u.email == p.email && u.name == p.name && u.createdAt == now
  {
    User(p.sub, p.email, p.name, p.picture, now)
  }

  /** The `POST` handler; `now` is `new Date()`. */
  function Login(users: seq<User>, idToken: Value, verify: Verification, now: nat, db: Db): (r: Outcome)
    ensures Falsy(idToken) ==> r == Outcome(Rejected(MissingToken), users, [])
    ensures r.response.Rejected? <==> Falsy(idToken)
    ensures !Falsy(idToken) ==> |r.effects| >= 1 && r.effects[0] == VerifyToken(idToken)
    ensures !r.response.LoggedIn? ==> r.users == users
    ensures r.response.Unauthorized? <==> !Falsy(idToken) && verify.NoPayload?
    ensures r.response.Unauthorized? ==> r.effects == [VerifyToken(idToken)]
    ensures r.response.Failed? ==> r.response.error == AuthFailed
    ensures r.response.LoggedIn? <==> !Falsy(idToken) && verify.Verified? && db.connects && db.writes
    ensures r.response.LoggedIn? ==>
              && r.response.token == idToken
              && r.response.user == UserOf(verify.payload, now)
              && r.users == Upsert(users, r.response.user)
  {
    if Falsy(idToken) then Outcome(Rejected(MissingToken), users, [])
    else
      var verified := [VerifyToken(idToken)];
      match verify
      case VerifyThrew => Outcome(Failed(AuthFailed), users, verified)
      case NoPayload => Outcome(Unauthorized(InvalidToken), users, verified)
      case Verified(p) =>
        if !db.connects then Outcome(Failed(AuthFailed), users, verified + [ConnectDb])
        else
          var u := UserOf(p, now);
          var effects := verified + [ConnectDb, UpsertUser(p.sub)];
          if !db.writes then Outcome(Failed(AuthFailed), users, effects)
          else Outcome(LoggedIn(u, idToken), Upsert(users, u), effects)
  }

  /**
   * After any successful login exactly one user carries the subject id,
   * and logging in again with the same subject overwrites that user with
   * the latest claims and clock without adding a user.
   */
  lemma LoginAgainOverwrites(users: seq<User>, token: Value, p: Payload, q: Payload, t1: nat, t2: nat)
    requires UniqueIds(users) && !Falsy(token) && p.sub == q.sub
    ensures var first := Login(users, token, Verified(p), t1, Db(true, true)).users;
            var second := Login(first, token, Verified(q), t2, Db(true, true)).users;
            && UniqueIds(second) && |second| == |first|
            && (exists k :: 0 <= k < |second| && second[k] == UserOf(q, t2))
            && forall k :: 0 <= k < |second| && second[k].googleId == p.sub ==> second[k] == UserOf(q, t2)
  {
    var first := Login(users, token, Verified(p), t1, Db(true, true)).users;
    var k :| 0 <= k < |first| && first[k] == UserOf(p, t1);
    FindFirstUnique(first, p.sub, k);
    var second := Upsert(first, UserOf(q, t2));
    assert second == first[k := UserOf(q, t2)];
    assert second[k] == UserOf(q, t2);
  }

  lemma FindFirstUnique(users: seq<User>, id: string, i: nat)
    requires UniqueIds(users) && i < |users| && users[i].googleId == id
    ensures FindUser(users, id) == Some(i)
  {
    FindFirst(users, id, i);
  }
}

=== FILE: json.dfy ===
/** The JSON request values the handlers inspect, and JavaScript truthiness on them. */
module Json {

  /**
   * A decoded request field. `Missing` is the `undefined` read from an absent
   * key; numbers are restricted to integers.
   */
  datatype Value =
    | Missing
    | Null
    | Bool(b: bool)
    | Num(n: int)
    | Str(s: string)
    | Arr(items: seq<Value>)
    | Obj

  /** The values JavaScript treats as false in `if (!x)` and `x || y`. */
  predicate Falsy(v: Value) {
    v.Missing? || v.Null? || v == Bool(false) || v == Num(0) || v == Str([])
  }
}

=== FILE: likes.dfy ===
/** The like handler: a conditional increment of one post's `likes` counter. */
module Likes {
  import opened Wrappers
  import opened Json
  import Posts

  const MissingId := "Story ID is required."
  const NotFoundError := "Story not found."
  const LikeError := "Failed to like story."

  datatype Response = Liked(storyId: Value) | Rejected(error: string) | NotFound(error: string) | Failed(error: string)
  {
    function Status(): nat {
      match this
      case Liked(_) => 200
      case Rejected(_) => 400
      case NotFound(_) => 404
      case Failed(_) => 500
    }
  }

  datatype Outcome = Outcome(response: Response, store: Posts.Store)

  /** The post with one more like and every other field as it was. */
  function Bump(p: Posts.Post): (q: Posts.Post)
    ensures q.likes == p.likes + 1
    ensures q.(likes := p.likes) == p
  {
    p.(likes := p.likes + 1)
  }

  /**
   * The `POST` handler. `key` is the document id the database makes of
   * `storyId` (`None` when the cast throws); `dbUp` whether the connection
   * and the update succeed.
   */
  function Like(store: Posts.Store, storyId: Value, key: Option<string>, dbUp: bool): (r: Outcome)
    ensures r.response.Rejected? <==> Falsy(storyId)
    ensures Falsy(storyId) ==> r.store == store
    ensures !r.response.Liked? ==> r.store == store
    ensures r.response.NotFound? <==> !Falsy(storyId) && dbUp && key.Some? && key.value !in store
    ensures r.response.Liked? <==> !Falsy(storyId) && dbUp && key.Some? && key.value in store
    ensures r.response.Liked? ==>
              && r.response.storyId == storyId
              && r.store.Keys == store.Keys
              && r.store[key.value].likes == store[key.value].likes + 1
              && r.store[key.value].(likes := store[key.value].likes) == store[key.value]
              && forall id :: id in store && id != key.value ==> r.store[id] == store[id]
  {
    if Falsy(storyId) then Outcome(Rejected(MissingId), store)
    else if !dbUp || key.None? then Outcome(Failed(LikeError), store)
    else if key.value !in store then Outcome(NotFound(NotFoundError), store)
    else Outcome(Liked(storyId), store[key.value := Bump(store[key.value])])
  }

  /** A fresh post's first like brings its counter to exactly one. */
  lemma FirstLikeIsOne(store: Posts.Store, body: Posts.CreateBody, id: string, now: nat, storyId: Value)
    requires Posts.CreatePost(store, body, id, now, true).response.Created?
    requires !Falsy(storyId)
    ensures var created := Posts.CreatePost(store, body, id, now, true).store;
            Like(created, storyId, Some(id), true).store[id].likes == 1
  {
  }

  /** The store after `n` likes of the post stored under `key`. */
  function LikeTimes(store: Posts.Store, storyId: Value, key: string, n: nat): Posts.Store
  {
    if n == 0 then store else LikeTimes(Like(store, storyId, Some(key), true).store, storyId, key, n - 1)
  }

  /** Each like counts once: `n` likes raise the counter by exactly `n` and touch nothing else. */
  lemma {:induction false} LikesAccumulate(store: Posts.Store, storyId: Value, key: string, n: nat)
    requires !Falsy(storyId) && key in store
    ensures var after := LikeTimes(store, storyId, key, n);
            && after.Keys == store.Keys
            && after[key] == store[key].(likes := store[key].likes + n)
            && forall id :: id in store && id != key ==> after[id] == store[id]
  {
    if n > 0 {
      var next := Like(store, storyId, Some(key), true).store;
      LikesAccumulate(next, storyId, key, n - 1);
    }
  }
}

=== FILE: numbers.dfy ===
/**
 * Decimal text for numbers: `toString()` of a non-negative integer (a
 * `uint256` event field, a millisecond clock) and `Number.parseInt`.
 */
module Numbers {
  import opened Wrappers
  import opened Text

  predicate IsDigit(c: char) {
    '0' <= c <= '9'
  }

  predicate AllDigits(s: string) {
    forall k :: 0 <= k < |s| ==> IsDigit(s[k])
  }

  function DigitChar(d: nat): (c: char)
    requires d < 10
    ensures IsDigit(c)
  {
    ('0' as int + d) as char
  }

  function DigitValue(c: char): (d: nat)
    requires IsDigit(c)
    ensures d < 10
  {
    c as int - '0' as int
  }

  /** The value of a string of decimal digits, most significant first. */
  function DigitsValue(s: string): nat
    requires AllDigits(s)
  {
    if s == [] then 0 else 10 * DigitsValue(s[..|s| - 1]) + DigitValue(s[|s| - 1])
  }

  /** `n.toString()`: the shortest decimal spelling of `n`. */
  function NatToString(n: nat): (r: string)
    ensures r != [] && AllDigits(r)
    ensures r[0] == '0' ==> n == 0 && r == "0"
    ensures NoSpace(r) && NoUpper(r)
  {
    if n < 10 then [DigitChar(n)]
    else NatToString(n / 10) + [DigitChar(n % 10)]
  }

  /** Reading back the digits of `NatToString(n)` gives `n`. */
  lemma {:induction false} NatToStringValue(n: nat)
    ensures DigitsValue(NatToString(n)) == n
  {
    if n >= 10 {
      var s := NatToString(n);
      assert s[..|s| - 1] == NatToString(n / 10);
      NatToStringValue(n / 10);
    }
  }

  /** The longest prefix of `s` made of decimal digits. */
  function DigitPrefix(s: string): (r: string)
    ensures |r| <= |s| && AllDigits(r) && r == s[..|r|]
    ensures |r| == |s| || !IsDigit(s[|r|])
  {
    if s != [] && IsDigit(s[0]) then
      var r := [s[0]] + DigitPrefix(s[1..]);
      assert s[..|r|] == [s[0]] + s[1..][..|r| - 1];
      r
    else []
  }

  /**
   * `Number.parseInt(s)` in base ten: leading white space is skipped, one
   * optional sign is read, then the longest run of digits; `None` stands for
   * `NaN`, the result when no digit follows.
   */
  function ParseInt(s: string): (r: Option<int>)
    ensures r.None? <==> DigitPrefix(Unsigned(TrimStart(s))) == []
  {
    ParseSigned(TrimStart(s))
  }

  /** `Number.parseInt` once the leading white space is skipped: a sign, then digits. */
  function ParseSigned(t: string): (r: Option<int>)
    ensures r.None? <==> DigitPrefix(Unsigned(t)) == []
  {
    var digits := DigitPrefix(Unsigned(t));
    if digits == [] then None
    else if t[0] == '-' then Some(-(DigitsValue(digits) as int))
    else Some(DigitsValue(digits))
  }

  /** `t` without a leading `+` or `-`. */
  function Unsigned(t: string): (r: string)
    ensures |r| <= |t|
  {
    if t != [] && (t[0] == '-' || t[0] == '+') then t[1..] else t
  }

  /** `Number.parseInt` reads back what `toString()` wrote, whatever text follows a non-digit. */
  lemma ParseIntNatToString(n: nat, rest: string)
    requires rest == [] || !IsDigit(rest[0])
    ensures ParseInt(NatToString(n) + rest) == Some(n)
  {
    var s := NatToString(n);
    var t := s + rest;
    assert t[0] == s[0] && IsDigit(s[0]);
    assert TrimStart(t) == t;
    assert Unsigned(t) == t;
    DigitPrefixOf(s, rest);
    NatToStringValue(n);
    assert DigitPrefix(Unsigned(TrimStart(t))) == s;
  }

  lemma ParseIntOfNat(n: nat)
    ensures ParseInt(NatToString(n)) == Some(n)
  {
    ParseIntNatToString(n, []);
    assert NatToString(n) + [] == NatToString(n);
  }

  /** Only `-` and `+`, or nothing, may stand in front of the digits. */
  predicate IsSign(sign: string) {
    sign == "" || sign == "+" || sign == "-"
  }

  /** The value a magnitude has after `sign`. */
  function Signed(sign: string, m: nat): int {
    if sign == "-" then -(m as int) else m
  }

  /**
   * `Number.parseInt` of white space, an optional sign, a run of digits and
   * text that does not continue the run: the run's value, negated after `-`.
   */
  lemma ParseIntDigits(w: string, sign: string, d: string, rest: string)
    requires AllSpace(w) && IsSign(sign) && d != [] && AllDigits(d)
    requires rest == [] || !IsDigit(rest[0])
    ensures ParseInt(w + sign + d + rest) == Some(Signed(sign, DigitsValue(d)))
  {
    var t := sign + d + rest;
    ParseSignedDigits(sign, d, rest);
    SignedText(sign, d + rest);
    TrimStartRun(w, t);
    ParseIntAfterSpace(w + t, t);
    Regroup(w, sign, d, rest);
  }

  /** The regroupings of a four-part concatenation the proofs here need. */
  lemma Regroup(a: string, b: string, c: string, e: string)
    ensures b + (c + e) == b + c + e
    ensures a + b + c + e == a + (b + c + e)
    ensures a + (b + c) + e == a + b + c + e
  {
  }

  /** Once the leading white space is skipped, `ParseInt` is `ParseSigned`. */
  lemma ParseIntAfterSpace(s: string, t: string)
    requires TrimStart(s) == t
    ensures ParseInt(s) == ParseSigned(t)
  {
  }

  /** `ParseSigned` of an optional sign, digits, and text that does not continue them. */
  lemma ParseSignedDigits(sign: string, d: string, rest: string)
    requires IsSign(sign) && d != [] && AllDigits(d)
    requires rest == [] || !IsDigit(rest[0])
    ensures ParseSigned(sign + d + rest) == Some(Signed(sign, DigitsValue(d)))
  {
    var u := d + rest;
    var t := sign + u;
    assert sign + d + rest == t;
    assert u[0] == d[0];
    SignedText(sign, u);
    DigitPrefixOf(d, rest);
    ParseSignedOf(t, d);
  }

  lemma ParseSignedOf(t: string, d: string)
    requires t != [] && d != [] && DigitPrefix(Unsigned(t)) == d
    ensures ParseSigned(t) == Some(Signed(if t[0] == '-' then "-" else "", DigitsValue(d)))
  {
  }

  lemma SignedText(sign: string, u: string)
    requires IsSign(sign) && u != [] && IsDigit(u[0])
    ensures var t := sign + u; t != [] && !IsSpace(t[0]) && Unsigned(t) == u && (t[0] == '-' <==> sign == "-")
  {
    if sign == "" {
      assert sign + u == u;
    } else {
      assert (sign + u)[1..] == u;
    }
  }

  predicate AllZeros(z: string) {
    forall k :: 0 <= k < |z| ==> z[k] == '0'
  }

  lemma {:induction false} ZerosValue(z: string)
    requires AllZeros(z)
    ensures AllDigits(z) && DigitsValue(z) == 0
  {
    if z != [] {
      assert AllZeros(z[..|z| - 1]);
      ZerosValue(z[..|z| - 1]);
    }
  }

  /** Leading zeros do not change the value of a digit string. */
  lemma {:induction false} LeadingZerosValue(z: string, d: string)
    requires AllZeros(z) && AllDigits(d)
    ensures AllDigits(z + d) && DigitsValue(z + d) == DigitsValue(d)
    decreases |d|
  {
    ZerosValue(z);
    assert forall k :: |z| <= k < |z + d| ==> (z + d)[k] == d[k - |z|];
    if d == [] {
      assert z + d == z;
    } else {
      var e := d[..|d| - 1];
      assert (z + d)[..|z + d| - 1] == z + e;
      LeadingZerosValue(z, e);
    }
  }

  /**
   * `Number.parseInt` reads a signed number after white space, skipping
   * leading zeros: `" -007x"` reads as `-7`.
   */
  lemma ParseIntSigned(w: string, sign: string, z: string, n: nat, rest: string)
    requires AllSpace(w) && IsSign(sign) && AllZeros(z)
    requires rest == [] || !IsDigit(rest[0])
    ensures ParseInt(w + sign + z + NatToString(n) + rest) == Some(Signed(sign, n))
  {
    var u := NatToString(n);
    LeadingZerosValue(z, u);
    NatToStringValue(n);
    ParseIntDigits(w, sign, z + u, rest);
    Regroup(w + sign, z, u, rest);
  }

  /** `Number.parseInt(" -007x")` is `-7`. */
  lemma ParseIntExample()
    ensures ParseInt(" -007x") == Some(-7)
  {
    assert NatToString(7) == "7";
    assert AllSpace(" ") && AllZeros("00");
    assert " " + "-" + "00" + NatToString(7) + "x" == " -007x";
    ParseIntSigned(" ", "-", "00", 7, "x");
  }

  lemma {:induction false} DigitPrefixOf(s: string, rest: string)
    requires AllDigits(s)
    requires rest == [] || !IsDigit(rest[0])
    ensures DigitPrefix(s + rest) == s
  {
    if s != [] {
      assert (s + rest)[1..] == s[1..] + rest;
      DigitPrefixOf(s[1..], rest);
    } else {
      assert s + rest == rest;
    }
  }
}

=== FILE: posts.dfy ===
/** The post-creation handler: two required fields and the `tags` normalisation. */
module Posts {
  import opened Json
  import opened Text

  const RequiredError := "Content and location are required."
  const CreateError := "Failed to create post."

  /** A stored post; the counters are zero until a like (or comment, share) raises them. */
  datatype Post = Post(content: Value, location: Value, tags: seq<Value>,
                       likes: nat, comments: nat, shares: nat, createdAt: nat)

  /** The post collection, keyed by document id. */
  type Store = map<string, Post>

  datatype CreateBody = CreateBody(content: Value, location: Value, tags: Value)

  function StrValues(xs: seq<string>): (r: seq<Value>)
    ensures |r| == |xs|
    ensures forall k :: 0 <= k < |r| ==> r[k] == Str(xs[k])
  {
    seq(|xs|, k requires 0 <= k < |xs| => Str(xs[k]))
  }

  /**
   * The stored tag list: an array is kept as given, a non-empty string is
   * cut at every comma and each piece trimmed (empty pieces stay), anything
   * else gives no tags.
   */
  function NormalizeTags(tags: Value): (r: seq<Value>)
    ensures tags.Arr? ==> r == tags.items
    ensures tags.Str? && tags.s != [] ==>
              && |r| == Count(tags.s, ',') + 1
              && forall k :: 0 <= k < |r| ==> r[k].Str? && IsTrimmed(r[k].s) && ',' !in r[k].s
    ensures tags.Str? && tags.s != [] ==>
              forall k :: 0 <= k < |r| ==> r[k] == Str(Trim(Split(tags.s, ',')[k]))
    ensures !tags.Arr? && !(tags.Str? && tags.s != []) ==> r == []
  {
    if tags.Arr? then tags.items
    else if tags.Str? && tags.s != [] then
      var pieces := Split(tags.s, ',');
      forall k | 0 <= k < |pieces|
        ensures ',' !in Trim(pieces[k])
      {
        TrimKeepsChars(pieces[k], ',');
      }
      StrValues(TrimAll(pieces))
    else []
  }

  /** The strings inside a list of string values. */
  function Strings(vs: seq<Value>): (r: seq<string>)
    requires forall k :: 0 <= k < |vs| ==> vs[k].Str?
    ensures |r| == |vs|
    ensures forall k :: 0 <= k < |r| ==> vs[k] == Str(r[k])
  {
    seq(|vs|, k requires 0 <= k < |vs| => vs[k].s)
  }

  /**
   * When no piece has white space at its ends, joining the stored tags with
   * commas gives back the submitted string: no tag is lost or merged.
   */
  lemma TagsRoundTrip(s: string)
    requires s != []
    requires forall k :: 0 <= k < |Split(s, ',')| ==> IsTrimmed(Split(s, ',')[k])
    ensures Join(Strings(NormalizeTags(Str(s))), ',') == s
  {
    var pieces := Split(s, ',');
    forall k | 0 <= k < |pieces|
      ensures Trim(pieces[k]) == pieces[k]
    {
      TrimFixpoint(pieces[k]);
    }
    assert Strings(NormalizeTags(Str(s))) == pieces;
    JoinSplit(s, ',');
  }

  /** Empty pieces are kept: `"a,,b"` gives three tags, the middle one empty. */
  lemma EmptyPiecesKept()
    ensures NormalizeTags(Str("a,,b")) == [Str("a"), Str(""), Str("b")]
  {
    NormalizeOfExample();
    SplitOfExample();
    TrimAllOfExample();
    StrValuesOfExample();
  }

  lemma NormalizeOfExample()
    ensures NormalizeTags(Str("a,,b")) == StrValues(TrimAll(Split("a,,b", ',')))
  {
  }

  lemma StrValuesOfExample()
    ensures StrValues(["a", "", "b"]) == [Str("a"), Str(""), Str("b")]
  {
  }

  lemma SplitOfExample()
    ensures Split("a,,b", ',') == ["a", "", "b"]
  {
    var parts := ["a", "", "b"];
    assert Join(parts[2..], ',') == "b";
    assert Join(parts[1..], ',') == ",b";
    assert Join(parts, ',') == "a,,b";
    SplitJoin(parts, ',');
  }

  lemma TrimAllOfExample()
    ensures TrimAll(["a", "", "b"]) == ["a", "", "b"]
  {
    var parts := ["a", "", "b"];
    assert IsTrimmed(parts[0]) && IsTrimmed(parts[1]) && IsTrimmed(parts[2]);
    TrimAllFixpoint(parts);
  }

  datatype Response = Created(post: Post) | Rejected(error: string) | Failed(error: string)
  {
    function Status(): nat {
      match this
      case Created(_) => 201
      case Rejected(_) => 400
      case Failed(_) => 500
    }
  }

  datatype Outcome = Outcome(response: Response, store: Store)

  /**
   * The `POST` handler. `newId` is the id the database assigns, `now` the
   * clock, and `dbUp` whether connecting and writing succeed; an id already
   * in use is a failed insert.
   */
  function CreatePost(store: Store, body: CreateBody, newId: string, now: nat, dbUp: bool): (r: Outcome)
    ensures r.response.Rejected? <==> Falsy(body.content) || Falsy(body.location)
    ensures r.response.Created? <==>
              !Falsy(body.content) && !Falsy(body.location) && dbUp && newId !in store
    ensures !r.response.Created? ==> r.store == store
    ensures r.response.Created? ==>
              && newId !in store && r.store == store[newId := r.response.post]
              && |r.store| == |store| + 1
              && r.response.post.content == body.content
              && r.response.post.location == body.location
              && r.response.post.tags == NormalizeTags(body.tags)
              && r.response.post.likes == 0
  {
    if Falsy(body.content) || Falsy(body.location) then Outcome(Rejected(RequiredError), store)
    else if !dbUp || newId in store then Outcome(Failed(CreateError), store)
    else
      var post := Post(body.content, body.location, NormalizeTags(body.tags), 0, 0, 0, now);
      Outcome(Created(post), store[newId := post])
  }
}

=== FILE: text.dfy ===
/**
 * The string operations the handlers rely on, restricted to ASCII: the `\s`
 * class, `trim`, `toLowerCase`, `split` and `replace(/\s+/g, "_")`.
 */
module Text {

  /** The ASCII members of JavaScript's white-space class (`\s`, and what `trim` removes). */
  predicate IsSpace(c: char) {
    c == ' ' || c == '\t' || c == '\n' || c == '\U{0B}' || c == '\U{0C}' || c == '\r'
  }

  predicate IsUpper(c: char) {
    'A' <= c <= 'Z'
  }

  /** No character of `s` is white space. */
  predicate NoSpace(s: string) {
    forall k :: 0 <= k < |s| ==> !IsSpace(s[k])
  }

  /** No character of `s` is an upper-case ASCII letter. */
  predicate NoUpper(s: string) {
    forall k :: 0 <= k < |s| ==> !IsUpper(s[k])
  }

  lemma NoSpaceAppend(a: string, b: string)
    requires NoSpace(a) && NoSpace(b)
    ensures NoSpace(a + b)
  {
    assert forall k :: |a| <= k < |a + b| ==> (a + b)[k] == b[k - |a|];
  }

  lemma NoUpperAppend(a: string, b: string)
    requires NoUpper(a) && NoUpper(b)
    ensures NoUpper(a + b)
  {
    assert forall k :: |a| <= k < |a + b| ==> (a + b)[k] == b[k - |a|];
  }

  /** Every character of `s` is white space. */
  predicate AllSpace(s: string) {
    forall k :: 0 <= k < |s| ==> IsSpace(s[k])
  }

  /** `s` neither starts nor ends with white space. */
  predicate IsTrimmed(s: string) {
    s == [] || (!IsSpace(s[0]) && !IsSpace(s[|s| - 1]))
  }

  // ---------------------------------------------------------------- case

  function ToLowerChar(c: char): (r: char)
    ensures !IsUpper(r)
    ensures IsUpper(c) ==> r as int == c as int + 32
    ensures !IsUpper(c) ==> r == c
    ensures IsSpace(r) <==> IsSpace(c)
  {
    if IsUpper(c) then (c as int + 32) as char else c
  }

  /** `toLowerCase` on ASCII: upper-case letters become lower-case, everything else is kept. */
  function ToLower(s: string): (r: string)
    ensures |r| == |s|
    ensures forall k :: 0 <= k < |r| ==> !IsUpper(r[k])
    ensures forall k :: 0 <= k < |r| && IsUpper(s[k]) ==> r[k] as int == s[k] as int + 32
    ensures forall k :: 0 <= k < |r| && !IsUpper(s[k]) ==> r[k] == s[k]
    ensures forall k :: 0 <= k < |r| ==> (IsSpace(r[k]) <==> IsSpace(s[k]))
  {
    seq(|s|, k requires 0 <= k < |s| => ToLowerChar(s[k]))
  }

  // ---------------------------------------------------------------- trim

  /** Drops the leading white space of `s`. */
  function TrimStart(s: string): (r: string)
    ensures |r| <= |s| && r == s[|s| - |r|..]
    ensures forall k :: 0 <= k < |s| - |r| ==> IsSpace(s[k])
    ensures r == [] || !IsSpace(r[0])
  {
    if s != [] && IsSpace(s[0]) then
      var t := s[1..];
      var r := TrimStart(t);
      assert t[|t| - |r|..] == s[|s| - |r|..];
      assert forall k :: 1 <= k < |s| - |r| ==> s[k] == t[k - 1];
      r
    else s
  }

  /** Drops the trailing white space of `s`. */
  function TrimEnd(s: string): (r: string)
    ensures |r| <= |s| && r == s[..|r|]
    ensures forall k :: |r| <= k < |s| ==> IsSpace(s[k])
    ensures r == [] || !IsSpace(r[|r| - 1])
  {
    if s != [] && IsSpace(s[|s| - 1]) then
      var t := s[..|s| - 1];
      var r := TrimEnd(t);
      assert t[..|r|] == s[..|r|];
      assert forall k :: |r| <= k < |t| ==> s[k] == t[k];
      r
    else s
  }

  /** JavaScript's `trim`: `s` without its leading and trailing white space. */
  function Trim(s: string): (r: string)
    ensures IsTrimmed(r)
    ensures |r| <= |s|
  {
    TrimEnd(TrimStart(s))
  }

  /** A character absent from `s` is absent from every slice of it. */
  lemma SliceKeepsAbsent(s: string, i: nat, j: nat, c: char)
    requires i <= j <= |s| && c !in s
    ensures c !in s[i..j]
  {
    assert forall k :: 0 <= k < j - i ==> s[i..j][k] == s[i + k];
  }

  /** Trimming adds no character: what is absent from `s` is absent from its trim. */
  lemma TrimKeepsChars(s: string, c: char)
    requires c !in s
    ensures c !in Trim(s)
  {
    var t := TrimStart(s);
    SliceKeepsAbsent(s, |s| - |t|, |s|, c);
    assert t == s[|s| - |t|..|s|];
    var r := TrimEnd(t);
    SliceKeepsAbsent(t, 0, |r|, c);
    assert r == t[0..|r|];
  }

  /** Trimming changes exactly the strings that have white space at an end. */
  lemma TrimFixpoint(s: string)
    ensures Trim(s) == s <==> IsTrimmed(s)
  {
    if IsTrimmed(s) {
      assert TrimStart(s) == s;
      assert TrimEnd(s) == s;
    }
  }

  /**
   * Trimming removes white space at the ends and nothing else: the result is
   * the slice of `s` between a leading and a trailing run of white space.
   */
  lemma TrimSlice(s: string)
    ensures exists i :: 0 <= i && i + |Trim(s)| <= |s| && Trim(s) == s[i..i + |Trim(s)|]
                        && AllSpace(s[..i]) && AllSpace(s[i + |Trim(s)|..])
  {
    var t := TrimStart(s);
    var r := TrimEnd(t);
    var i := |s| - |t|;
    assert r == s[i..i + |r|];
    assert forall k :: 0 <= k < i ==> s[..i][k] == s[k];
    var tail := s[i + |r|..];
    assert forall k :: 0 <= k < |tail| ==> tail[k] == t[|r| + k];
    assert AllSpace(s[..i]) && AllSpace(s[i + |r|..]);
  }

  /**
   * The slice is unique: a trimmed string padded with white space on both
   * sides trims back to itself.
   */
  lemma TrimOfPadded(w1: string, t: string, w2: string)
    requires AllSpace(w1) && IsTrimmed(t) && AllSpace(w2)
    ensures Trim(w1 + t + w2) == t
  {
    assert w1 + t + w2 == w1 + (t + w2);
    if t == [] {
      assert AllSpace(w1 + w2) by {
        assert forall k :: |w1| <= k < |w1 + w2| ==> (w1 + w2)[k] == w2[k - |w1|];
      }
      TrimStartRun(w1 + w2, []);
      assert w1 + w2 + [] == w1 + t + w2;
    } else {
      TrimStartRun(w1, t + w2);
      TrimEndRun(t, w2);
    }
  }

  lemma {:induction false} TrimEndRun(t: string, w: string)
    requires AllSpace(w)
    requires t == [] || !IsSpace(t[|t| - 1])
    ensures TrimEnd(t + w) == t
    decreases |w|
  {
    if w != [] {
      var v := w[..|w| - 1];
      assert (t + w)[..|t + w| - 1] == t + v;
      TrimEndRun(t, v);
    } else {
      assert t + w == t;
    }
  }

  // ---------------------------------------------------------------- split / join

  /** Position of the first `c` in `s`. */
  function IndexOf(s: string, c: char): (i: nat)
    requires c in s
    ensures i < |s| && s[i] == c && c !in s[..i]
  {
    if s[0] == c then 0
    else
      var i := 1 + IndexOf(s[1..], c);
      assert s[..i] == [s[0]] + s[1..][..i - 1];
      i
  }

  lemma IndexOfUnique(s: string, c: char, k: nat)
    requires k < |s| && s[k] == c && c !in s[..k]
    ensures IndexOf(s, c) == k
  {
  }

  /** Number of occurrences of `c` in `s`. */
  function Count(s: string, c: char): nat
  {
    if s == [] then 0 else (if s[0] == c then 1 else 0) + Count(s[1..], c)
  }

  lemma CountSplit(a: string, b: string, c: char)
    ensures Count(a + b, c) == Count(a, c) + Count(b, c)
  {
    if a != [] {
      assert (a + b)[1..] == a[1..] + b;
      CountSplit(a[1..], b, c);
    } else {
      assert a + b == b;
    }
  }

  /** A character absent from `s` occurs in it zero times. */
  lemma CountAbsent(s: string, c: char)
    ensures c !in s ==> Count(s, c) == 0
  {
    if s != [] && c !in s {
      CountAbsent(s[1..], c);
    }
  }

  /**
   * JavaScript's `s.split(sep)` for a one-character separator: the pieces
   * between consecutive separators, empty pieces included.
   */
  function Split(s: string, sep: char): (r: seq<string>)
    ensures |r| == Count(s, sep) + 1
    ensures forall k :: 0 <= k < |r| ==> sep !in r[k]
    decreases |s|
  {
    if sep !in s then
      CountAbsent(s, sep);
      [s]
    else
      var i := IndexOf(s, sep);
      var rest := Split(s[i + 1..], sep);
      assert s == s[..i] + ([sep] + s[i + 1..]);
      CountSplit(s[..i], [sep] + s[i + 1..], sep);
      CountAbsent(s[..i], sep);
      [s[..i]] + rest
  }

  /** `parts.join(sep)`: the pieces with one separator between neighbours. */
  function Join(parts: seq<string>, sep: char): (r: string)
    ensures |parts| >= 1 && (forall k :: 0 <= k < |parts| ==> sep !in parts[k]) ==>
              Count(r, sep) == |parts| - 1
  {
    if |parts| == 0 then []
    else if |parts| == 1 then
      CountAbsent(parts[0], sep);
      parts[0]
    else
      var rest := Join(parts[1..], sep);
      CountSplit(parts[0] + [sep], rest, sep);
      CountSplit(parts[0], [sep], sep);
      assert Count([sep], sep) == 1 by {
        assert [sep][1..] == [];
      }
      CountAbsent(parts[0], sep);
      parts[0] + [sep] + rest
  }

  /** Joining the pieces with the separator gives the original string back. */
  lemma {:induction false} JoinSplit(s: string, sep: char)
    ensures Join(Split(s, sep), sep) == s
    decreases |s|
  {
    if sep in s {
      var i := IndexOf(s, sep);
      var rest := Split(s[i + 1..], sep);
      JoinSplit(s[i + 1..], sep);
      assert Split(s, sep) == [s[..i]] + rest;
      assert ([s[..i]] + rest)[1..] == rest;
      assert s == s[..i] + [sep] + s[i + 1..];
    }
  }

  /** Splitting a join of separator-free pieces gives the pieces back. */
  lemma {:induction false} SplitJoin(parts: seq<string>, sep: char)
    requires |parts| >= 1
    requires forall k :: 0 <= k < |parts| ==> sep !in parts[k]
    ensures Split(Join(parts, sep), sep) == parts
  {
    if |parts| > 1 {
      var p := parts[0];
      var tail := Join(parts[1..], sep);
      var s := p + [sep] + tail;
      assert Join(parts, sep) == s;
      assert s[..|p|] == p && s[|p|] == sep;
      IndexOfUnique(s, sep, |p|);
      assert s[|p| + 1..] == tail;
      assert Split(s, sep) == [p] + Split(tail, sep);
      SplitJoin(parts[1..], sep);
      assert parts == [p] + parts[1..];
    }
  }

  // ---------------------------------------------------------------- filter

  /** `xs.filter(Boolean)` on strings: the non-empty elements, in order. */
  function NonEmpty(xs: seq<string>): (r: seq<string>)
    ensures |r| <= |xs|
    ensures forall k :: 0 <= k < |r| ==> r[k] != []
    ensures forall x :: x in r <==> x in xs && x != []
    ensures multiset(r) == multiset(xs)[[] := 0]
  {
    if xs == [] then []
    else if xs[0] == [] then
      assert xs == [xs[0]] + xs[1..];
      assert multiset(xs) == multiset(xs[1..]) + multiset{[]};
      NonEmpty(xs[1..])
    else
      assert xs == [xs[0]] + xs[1..];
      [xs[0]] + NonEmpty(xs[1..])
  }

  /** Filtering keeps the order: the filter of a concatenation is the concatenation of the filters. */
  lemma {:induction false} NonEmptyAppend(a: seq<string>, b: seq<string>)
    ensures NonEmpty(a + b) == NonEmpty(a) + NonEmpty(b)
  {
    if a != [] {
      assert (a + b)[0] == a[0] && (a + b)[1..] == a[1..] + b;
      NonEmptyAppend(a[1..], b);
    } else {
      assert a + b == b;
    }
  }

  /** Dropping empty elements keeps every remaining element trimmed. */
  lemma NonEmptyOfTrimmed(xs: seq<string>)
    requires forall k :: 0 <= k < |xs| ==> IsTrimmed(xs[k])
    ensures forall k :: 0 <= k < |NonEmpty(xs)| ==> IsTrimmed(NonEmpty(xs)[k])
  {
    var r := NonEmpty(xs);
    forall k | 0 <= k < |r|
      ensures IsTrimmed(r[k])
    {
      assert r[k] in xs;
      var j :| 0 <= j < |xs| && xs[j] == r[k];
    }
  }

  /** Trims every element: `xs.map((x) => x.trim())`. */
  function TrimAll(xs: seq<string>): (r: seq<string>)
    ensures |r| == |xs|
    ensures forall k :: 0 <= k < |r| ==> IsTrimmed(r[k])
  {
    seq(|xs|, k requires 0 <= k < |xs| => Trim(xs[k]))
  }

  /** Element `k` of the mapped list is the trim of element `k`. */
  lemma TrimAllMaps(xs: seq<string>)
    ensures forall k :: 0 <= k < |xs| ==> TrimAll(xs)[k] == Trim(xs[k])
  {
  }

  /** Trimming a two-element list trims each element. */
  lemma TrimAllPair(a: string, b: string)
    ensures TrimAll([a, b]) == [Trim(a), Trim(b)]
  {
    var xs := [a, b];
    var r := TrimAll(xs);
    assert r[0] == Trim(xs[0]) && r[1] == Trim(xs[1]);
  }

  /** Elements already without white space at their ends are kept as they are. */
  lemma TrimAllFixpoint(xs: seq<string>)
    requires forall k :: 0 <= k < |xs| ==> IsTrimmed(xs[k])
    ensures TrimAll(xs) == xs
  {
    forall k | 0 <= k < |xs|
      ensures TrimAll(xs)[k] == xs[k]
    {
      TrimFixpoint(xs[k]);
    }
  }

  // ---------------------------------------------------------------- whitespace runs

  /**
   * `s.replace(/\s+/g, "_")`: every maximal run of white space becomes a
   * single underscore; other characters are kept.
   */
  function CollapseSpaces(s: string): (r: string)
    ensures NoSpace(r)
    ensures |r| <= |s|
    decreases |s|
  {
    if s == [] then []
    else if IsSpace(s[0]) then
      var t := TrimStart(s[1..]);
      assert |t| < |s|;
      var rest := CollapseSpaces(t);
      NoSpaceAppend("_", rest);
      "_" + rest
    else
      var rest := CollapseSpaces(s[1..]);
      NoSpaceAppend([s[0]], rest);
      [s[0]] + rest
  }

  /** Collapsing introduces only underscores, so it keeps a string free of upper case. */
  lemma {:induction false} CollapseKeepsNoUpper(s: string)
    requires NoUpper(s)
    ensures NoUpper(CollapseSpaces(s))
    decreases |s|
  {
    if s != [] {
      if IsSpace(s[0]) {
        var t := TrimStart(s[1..]);
        assert forall k :: 0 <= k < |t| ==> t[k] == s[1..][|s| - 1 - |t| + k];
        CollapseKeepsNoUpper(t);
        NoUpperAppend("_", CollapseSpaces(t));
      } else {
        assert NoUpper(s[1..]);
        CollapseKeepsNoUpper(s[1..]);
        NoUpperAppend([s[0]], CollapseSpaces(s[1..]));
      }
    }
  }

  /** A string with no white space is left untouched. */
  lemma {:induction false} CollapseIdentity(s: string)
    requires NoSpace(s)
    ensures CollapseSpaces(s) == s
  {
    if s != [] {
      CollapseIdentity(s[1..]);
    }
  }

  /** A leading run of white space, however long, becomes exactly one underscore. */
  lemma CollapseRun(w: string, t: string)
    requires w != [] && AllSpace(w)
    requires t == [] || !IsSpace(t[0])
    ensures CollapseSpaces(w + t) == "_" + CollapseSpaces(t)
  {
    var s := w + t;
    assert s[0] == w[0] && IsSpace(s[0]);
    assert s[1..] == w[1..] + t;
    TrimStartRun(w[1..], t);
    assert CollapseSpaces(s) == "_" + CollapseSpaces(TrimStart(s[1..]));
  }

  lemma {:induction false} TrimStartRun(w: string, t: string)
    requires AllSpace(w)
    requires t == [] || !IsSpace(t[0])
    ensures TrimStart(w + t) == t
  {
    if w != [] {
      assert (w + t)[1..] == w[1..] + t;
      TrimStartRun(w[1..], t);
    } else {
      assert w + t == t;
    }
  }

  /** A leading word without white space is copied unchanged. */
  lemma {:induction false} CollapseWord(t: string, u: string)
    requires NoSpace(t)
    ensures CollapseSpaces(t + u) == t + CollapseSpaces(u)
  {
    if t != [] {
      assert (t + u)[1..] == t[1..] + u;
      CollapseWord(t[1..], u);
    } else {
      assert t + u == u;
    }
  }

  /** Two space-free words around a white-space run collapse to `word_word`. */
  lemma CollapseTwoWords(a: string, w: string, b: string)
    requires NoSpace(a) && NoSpace(b)
    requires w != [] && AllSpace(w)
    ensures CollapseSpaces(a + w + b) == a + "_" + b
  {
    var tail := w + b;
    assert a + w + b == a + tail;
    CollapseWord(a, tail);
    CollapseRunThenWord(w, b);
    assert a + ("_" + b) == a + "_" + b;
  }

  /** A white-space run followed by a space-free word becomes `_word`. */
  lemma CollapseRunThenWord(w: string, b: string)
    requires NoSpace(b)
    requires w != [] && AllSpace(w)
    ensures CollapseSpaces(w + b) == "_" + b
  {
    assert b == [] || !IsSpace(b[0]);
    CollapseRun(w, b);
    CollapseIdentity(b);
  }
}

=== FILE: trip_planner.dfy ===
/**
 * The trip-planner page's form logic: field updates, the defaults and
 * interest parsing used when a plan is generated, and when the Generate
 * button is enabled.
 */
module TripPlanner {
  import opened Text
  import Json

  const DefaultDestination := "Delhi,India"
  const DefaultDuration := "7 days"
  const DefaultBudget := "₹20000-30000"
  const DefaultTravelers := "2 people"
  const DefaultInterests := "sightseeing, food"
  const FallbackInterests := ["Culture", "Food", "Photography"]

  datatype Field = Destination | Duration | Budget | Travelers | Interests | AdditionalPreferences

  datatype Form = Form(destination: string, duration: string, budget: string, travelers: string,
                       interests: string, additionalPreferences: string)

  function Get(f: Form, field: Field): string {
    match field
    case Destination => f.destination
    case Duration => f.duration
    case Budget => f.budget
    case Travelers => f.travelers
    case Interests => f.interests
    case AdditionalPreferences => f.additionalPreferences
  }

  /** `handleInputChange`: the named field takes the new value, every other field keeps its own. */
  function HandleInputChange(f: Form, field: Field, v: string): (r: Form)
    ensures Get(r, field) == v
    ensures forall g :: g != field ==> Get(r, g) == Get(f, g)
  {
    match field
    case Destination => f.(destination := v)
    case Duration => f.(duration := v)
    case Budget => f.(budget := v)
    case Travelers => f.(travelers := v)
    case Interests => f.(interests := v)
    case AdditionalPreferences => f.(additionalPreferences := v)
  }

  /** A form is fixed by its six fields. */
  lemma FormsEqualByFields(f: Form, g: Form)
    requires forall field :: Get(f, field) == Get(g, field)
    ensures f == g
  {
    assert Get(f, Destination) == Get(g, Destination);
    assert Get(f, Duration) == Get(g, Duration);
    assert Get(f, Budget) == Get(g, Budget);
    assert Get(f, Travelers) == Get(g, Travelers);
    assert Get(f, Interests) == Get(g, Interests);
    assert Get(f, AdditionalPreferences) == Get(g, AdditionalPreferences);
  }

  /** Edits to different fields can be made in either order. */
  lemma InputChangesCommute(f: Form, a: Field, va: string, b: Field, vb: string)
    requires a != b
    ensures HandleInputChange(HandleInputChange(f, a, va), b, vb)
         == HandleInputChange(HandleInputChange(f, b, vb), a, va)
  {
    var x := HandleInputChange(HandleInputChange(f, a, va), b, vb);
    var y := HandleInputChange(HandleInputChange(f, b, vb), a, va);
    FormsEqualByFields(x, y);
  }

  /** A later edit of a field replaces an earlier one. */
  lemma InputChangeOverwrites(f: Form, a: Field, v1: string, v2: string)
    ensures HandleInputChange(HandleInputChange(f, a, v1), a, v2) == HandleInputChange(f, a, v2)
  {
    FormsEqualByFields(HandleInputChange(HandleInputChange(f, a, v1), a, v2), HandleInputChange(f, a, v2));
  }

  /** `s || fallback` on strings. */
  function OrDefault(s: string, fallback: string): (r: string)
    ensures s != [] ==> r == s
    ensures s == [] ==> r == fallback
  {
    if s == [] then fallback else s
  }

  /** A list of strings as the JavaScript array `||` inspects. */
  function AsArray(xs: seq<string>): Json.Value {
    Json.Arr(seq(|xs|, k requires 0 <= k < |xs| => Json.Str(xs[k])))
  }

  /**
   * The interests of a plan: the text (or its default) cut at commas, each
   * piece trimmed and empty pieces dropped, `|| FallbackInterests` applied.
   * The filtered array is always truthy, so the fallback never takes effect:
   * the result is the filtered pieces themselves, in order, duplicates kept.
   */
  function ParseInterests(text: string): (r: seq<string>)
    ensures forall k :: 0 <= k < |r| ==> r[k] != [] && IsTrimmed(r[k])
    ensures forall x :: x in r <==> x != [] && x in TrimAll(Split(OrDefault(text, DefaultInterests), ','))
    ensures r == NonEmpty(TrimAll(Split(OrDefault(text, DefaultInterests), ',')))
  {
    var pieces := TrimAll(Split(OrDefault(text, DefaultInterests), ','));
    var parsed := NonEmpty(pieces);
    NonEmptyOfTrimmed(pieces);
    if Json.Falsy(AsArray(parsed)) then FallbackInterests else parsed
  }

  /** The `FallbackInterests` alternative is dead: an array, even an empty one, is truthy. */
  lemma FallbackNeverApplies()
    ensures ParseInterests(",,") == []
  {
    var parts := ["", "", ""];
    assert Join(parts[1..], ',') == ",";
    assert Join(parts, ',') == ",,";
    SplitJoin(parts, ',');
    TrimAllFixpoint(parts);
  }

  /** An empty interests field parses as the default text, giving two interests. */
  lemma EmptyInterestsDefault()
    ensures ParseInterests("") == ["sightseeing", "food"]
  {
    ParseOfEmpty();
    SplitOfDefault();
    TrimAllOfDefault();
    NonEmptyOfDefault();
  }

  lemma ParseOfEmpty()
    ensures ParseInterests("") == NonEmpty(TrimAll(Split(DefaultInterests, ',')))
  {
  }

  lemma NonEmptyOfDefault()
    ensures NonEmpty(["sightseeing", "food"]) == ["sightseeing", "food"]
  {
    var pieces := ["sightseeing", "food"];
    assert pieces[1..] == ["food"];
    assert NonEmpty(pieces[1..]) == ["food"];
  }

  lemma SplitOfDefault()
    ensures Split(DefaultInterests, ',') == ["sightseeing", " food"]
  {
    var parts := ["sightseeing", " food"];
    assert Join(parts, ',') == DefaultInterests;
    SplitJoin(parts, ',');
  }

  lemma TrimAllOfDefault()
    ensures TrimAll(["sightseeing", " food"]) == ["sightseeing", "food"]
  {
    TrimAllPair("sightseeing", " food");
    TrimFood();
    TrimSightseeing();
  }

  lemma TrimFood()
    ensures Trim(" food") == "food"
  {
    assert IsTrimmed("food");
    assert " " + "food" + "" == " food";
    TrimOfPadded(" ", "food", "");
  }

  lemma TrimSightseeing()
    ensures Trim("sightseeing") == "sightseeing"
  {
    assert IsTrimmed("sightseeing");
    TrimFixpoint("sightseeing");
  }

  /** The part of the generated plan that depends on the form. */
  datatype TripSummary = TripSummary(destination: string, duration: string, budget: string,
                                     travelers: string, interests: seq<string>)

  /** `generateTripPlan`'s use of the form: each empty field falls back to its default. */
  function GenerateTripPlan(f: Form): (r: TripSummary)
    ensures r.destination != [] && r.duration != [] && r.budget != [] && r.travelers != []
    ensures f.destination != [] ==> r.destination == f.destination
    ensures f.destination == [] ==> r.destination == DefaultDestination
    ensures f.duration != [] ==> r.duration == f.duration
    ensures f.duration == [] ==> r.duration == DefaultDuration
    ensures f.budget != [] ==> r.budget == f.budget
    ensures f.budget == [] ==> r.budget == DefaultBudget
    ensures f.travelers != [] ==> r.travelers == f.travelers
    ensures f.travelers == [] ==> r.travelers == DefaultTravelers
    ensures r.interests == ParseInterests(f.interests)
  {
    TripSummary(OrDefault(f.destination, DefaultDestination), OrDefault(f.duration, DefaultDuration),
                OrDefault(f.budget, DefaultBudget), OrDefault(f.travelers, DefaultTravelers),
                ParseInterests(f.interests))
  }

  /**
   * `!(isGenerating || !destination)`: the Generate button's enabled state.
   * A second plan cannot be started while one is being generated.
   */
  function GenerateEnabled(isGenerating: bool, f: Form): (r: bool)
    ensures isGenerating ==> !r
    ensures f.destination == [] ==> !r
    ensures !isGenerating && f.destination != [] ==> r
  {
    !(isGenerating || f.destination == [])
  }

  /**
   * A plan started from the button always keeps the typed destination, so
   * the destination default is reached only when the handler runs without
   * the button.
   */
  lemma EnabledPlanKeepsDestination(isGenerating: bool, f: Form)
    requires GenerateEnabled(isGenerating, f)
    ensures GenerateTripPlan(f).destination == f.destination
  {
  }
}

=== FILE: wrappers.dfy ===
/** Failure-carrying datatypes shared by every handler of the model. */
module Wrappers {

  /** A value that may be absent: JavaScript's `undefined`/`null` or a parse that found nothing. */
  datatype Option<+T> = None | Some(value: T) {

    /** `Ok` with the wrapped value, or `Err(message)` when there is none. */
    function ToResult(message: string): Result<T> {
      match this
      case Some(v) => Ok(v)
      case None => Err(message)
    }

    /** The wrapped value, or `default` when there is none. */
    function GetOr(default: T): T {
      match this
      case Some(v) => v
      case None => default
    }
  }

  /** The outcome of a step that may throw: its value, or the thrown error's message. */
  datatype Result<+R> = Ok(value: R) | Err(message: string)
}
